=== FILE: README.md ===
# Trivia lobby model

A Dafny model of the server side of a multiplayer trivia game and of the
quiz flow of its React client.

Players open a WebSocket on `/api/games/{gameId}/{username}` to join a game.
A scheduled poll starts every game that has gathered enough players, and
start notices go out on a Redis channel. The lobby lives in Redis:

- an id counter;
- a hash of fields per game (`category`, `started`);
- a set of usernames per game;
- a sorted set `games_pending:` scoring each unstarted game with its player count;
- sorted sets of questions per category.

The model keeps that store as immutable maps and sets and models each
repository call as a pure transition. It models:

- the store;
- the repository operations `createGame`, `findGame`, `addPlayer`,
  `startPendingGames`, question `save`/`find` and `listCategories`;
- the game and question services above them;
- the message building and session bookkeeping of the WebSocket handler;
- the client's answer tally, winner choice and question stepping.

Modules follow the source files:

| module | models |
|---|---|
| `RedisGameRepository` | the store, its reachability invariant `Valid`, and the lobby operations |
| `RedisQuestionRepository` | the standalone `q__` question repository |
| `DefaultGameService`, `DefaultQuestionService` | the service layer |
| `WebSocketGameHandler` | the WebSocket endpoint |
| `App` | the React client component |
| `Domain` | the `Question` and `Game` records |
| `SortedSet` | the Redis sorted-set commands used (ZADD INCR, ZRANGE, ZRANGEBYSCORE ... LIMIT, KEYS) |
| `Strings` | the Java string functions used (decimal rendering, `parseBoolean`, `equalsIgnoreCase`) |
| `Wrappers`, `Sequences` | `Option`/`Result` and a distinctness predicate |

The main proved properties:

- Every repository operation keeps the invariant of reachable stores.
  - Game ids are decimal counter values.
  - Pending games are unstarted.
  - Each pending game is scored with its current member count.
  - The empty store, `RedisGameRepository.EmptyStore`, is reachable: the invariant's base case.
- On a reachable store, a poll starts only games with at least three members.
- The client's results are exactly the top-counted answers.

## Model

| member | source | states |
|---|---|---|
| Strings.NatToDecimal | server/src/main/java/trivia/repository/RedisGameRepository.java:76-77 | A counter value written as a game id is a non-empty string of decimal digits with no leading zero. |
| Strings.ParseNatToDecimal | server/src/main/java/trivia/repository/RedisGameRepository.java:76-77 | Reading a game id back as a number gives the counter value it was made from. |
| Strings.NatToDecimalInjective | server/src/main/java/trivia/repository/RedisGameRepository.java:76-77 | Two counter values give the same id exactly when they are equal. |
| Strings.IntToDecimal | server/src/main/java/trivia/service/DefaultQuestionService.java:33 | The round count in the refusal message is written as Integer.toString writes it: a non-negative count as digits that parse back to it, a negative count as a minus sign followed by the digits of its magnitude, and in both cases no leading zero. |
| Strings.PrefixStrip | server/src/main/java/trivia/repository/RedisGameRepository.java:68-69 | A key built as prefix plus name starts with the prefix, cutting the prefix off gives the name back, and equal keys mean equal names. |
| Strings.ParseBoolean | server/src/main/java/trivia/repository/RedisGameRepository.java:98 | The started flag reads as true exactly for "true" in any letter case. |
| Strings.EqualsIgnoreCaseIsLowerCaseEquality | server/src/main/java/trivia/api/WebSocketGameHandler.java:134-136 | Comparing game ids ignoring case, position by position, is the same as comparing their lower-cased forms. So it is an equivalence relation. |
| SortedSet.IncrementScore | server/src/main/java/trivia/repository/RedisGameRepository.java:56 | ZADD INCR 1 raises the member's score by one, with an absent member counting as 0. It answers the new score and leaves every other member's score alone. |
| SortedSet.IncrementAt | server/src/main/java/trivia/repository/RedisGameRepository.java:56 | The same increment on a whole keyspace: a missing key starts empty, the member joins that key's set, and every other key keeps its set. |
| SortedSet.Range | server/src/main/java/trivia/repository/RedisQuestionRepository.java:40 | ZRANGE 0 -1 lists every member exactly once, in ascending score order. |
| SortedSet.RangeByScore | server/src/main/java/trivia/repository/RedisGameRepository.java:109-111 | ZRANGEBYSCORE with LIMIT returns at most the limit, each once, and only members scoring at least the minimum, ordered by score then by member. A qualifying member is left out only when the limit is reached, and then it sorts after every returned member. |
| SortedSet.NamesUnder | server/src/main/java/trivia/repository/RedisGameRepository.java:65-70 | Listing keys by prefix and cutting the prefix off gives exactly the names whose sorted set exists and is non-empty. |
| RedisGameRepository.KeyHelpersDisjoint | server/src/main/java/trivia/repository/RedisGameRepository.java:168-178 | The question, game and players key helpers are each injective. Their key ranges never overlap and never hit the pending index. The game key of the empty id is the counter's key. |
| RedisGameRepository.Save | server/src/main/java/trivia/repository/RedisGameRepository.java:52-57 | save increments the question's score under "q:" + category, answers the new score, changes only the question pool and keeps the invariant. |
| RedisGameRepository.FindQuestionsInCategory | server/src/main/java/trivia/repository/RedisGameRepository.java:59-63 | Returns exactly the category's saved questions, each once, in ascending score order. |
| RedisGameRepository.ListCategories | server/src/main/java/trivia/repository/RedisGameRepository.java:65-70 | A category is listed exactly when a non-empty "q:" sorted set exists for it. |
| RedisGameRepository.SaveListsCategory | server/src/main/java/trivia/repository/RedisGameRepository.java:52-70 | After a save the listed categories are the old ones plus the question's category. |
| RedisGameRepository.CreateGame | server/src/main/java/trivia/repository/RedisGameRepository.java:72-81 | The id is the counter plus one written as Long.toString writes it, digits with no leading zero, and the category is stored under it. No other game, member set, pending entry, pool or message changes. In a reachable store the id is fresh and the invariant holds afterwards. |
| RedisGameRepository.CreateGameKeepsValid | server/src/main/java/trivia/repository/RedisGameRepository.java:72-81 | Taking the next counter value and writing its category keeps the reachability invariant, and the new id was not in use. |
| RedisGameRepository.FindGame | server/src/main/java/trivia/repository/RedisGameRepository.java:83-101 | Empty exactly when the game hash is empty. Otherwise: the given id, the member-set size as players, the category field if present, and started iff the field reads "true" in any case, defaulting to false. |
| RedisGameRepository.FindGameOnValidStore | server/src/main/java/trivia/repository/RedisGameRepository.java:91-101 | In a reachable store, a game is found exactly when it was created. It reports its category, and it reports started exactly when the started field is present. |
| RedisGameRepository.CreateThenFind | server/src/main/java/trivia/repository/RedisGameRepository.java:72-101 | A fresh game is found with its category, 0 players and not started. The next creation's id parses to one more. |
| RedisGameRepository.AddPlayer | server/src/main/java/trivia/repository/RedisGameRepository.java:123-137 | Answers a game exactly when the hash is non-empty, has no started field and does not already list the user. Otherwise the store is untouched. On success the user is added, players is the old count plus one, that count becomes the pending score, the rest is unchanged and the invariant is kept. |
| RedisGameRepository.AddPlayerKeepsValid | server/src/main/java/trivia/repository/RedisGameRepository.java:123-137 | Adding a member to an unstarted game and re-scoring it with the new count keeps the reachability invariant. |
| RedisGameRepository.NoJoinAfterStart | server/src/main/java/trivia/repository/RedisGameRepository.java:126-127 | A game findGame reports as started accepts no player and the store is unchanged. |
| RedisGameRepository.JoinIsIdempotent | server/src/main/java/trivia/repository/RedisGameRepository.java:128-129 | A second join by the same user answers empty, leaves the store as the first join left it, and the count grew by one only. |
| RedisGameRepository.StartOne | server/src/main/java/trivia/repository/RedisGameRepository.java:114-119 | One game's transaction marks it started "true", drops it from the pending index, keeps its other fields with their values and adds no field but `started`, and publishes its id once on the game channel. Every other game and pending score, the counter, the members and the pool are unchanged. |
| RedisGameRepository.StartAll | server/src/main/java/trivia/repository/RedisGameRepository.java:113-120 | Running the transactions for a whole batch never touches the counter, the member sets or the question pool. |
| RedisGameRepository.StartedMessages | server/src/main/java/trivia/repository/RedisGameRepository.java:117 | One message on the game channel per started game, carrying its id, in batch order. |
| RedisGameRepository.StartAllMarksBatch | server/src/main/java/trivia/repository/RedisGameRepository.java:113-120 | Every game of the batch ends marked started "true" and out of the pending index; its hash gains only `started`, and its other fields keep their values. |
| RedisGameRepository.StartAllKeepsOthers | server/src/main/java/trivia/repository/RedisGameRepository.java:113-120 | A game outside the batch keeps its hash and its pending score, and keeps whether it has each of them at all. |
| RedisGameRepository.StartAllPublishes | server/src/main/java/trivia/repository/RedisGameRepository.java:117 | The batch appends exactly its start messages, one per id, in batch order. |
| RedisGameRepository.StartOneKeepsValid | server/src/main/java/trivia/repository/RedisGameRepository.java:114-119 | Starting one existing game keeps the reachability invariant. |
| RedisGameRepository.StartAllKeepsValid | server/src/main/java/trivia/repository/RedisGameRepository.java:113-120 | Starting a batch of existing games keeps the reachability invariant. |
| RedisGameRepository.StartPendingGames | server/src/main/java/trivia/repository/RedisGameRepository.java:103-121 | At most 100 distinct games, all pending with score at least minPlayers. A qualifying game is skipped only when the batch is full. Each started game is marked, unpended and published in order, gains no field but `started` and keeps its other fields' values, and all other games and scores are untouched. Counter, members and pool are unchanged and the invariant is kept. |
| RedisGameRepository.StartedGamesReportStarted | server/src/main/java/trivia/repository/RedisGameRepository.java:91-101 | On a reachable store, findGame reports every game marked started as started, and a game still in the pending index as found and not started. |
| RedisQuestionRepository.KeyRoundTrip | server/src/main/java/trivia/repository/RedisQuestionRepository.java:34-48 | Cutting three characters off createKey gives back the category, and find reads the key save writes. |
| RedisQuestionRepository.CreateKey | server/src/main/java/trivia/repository/RedisQuestionRepository.java:34-36 | The key is the three-character prefix "q__" followed by the whole category, and nothing else. |
| RedisQuestionRepository.NamespacesDisjoint | server/src/main/java/trivia/repository/RedisQuestionRepository.java:34-36 | The "q__" keys never coincide with the game repository's "q:" keys. |
| RedisQuestionRepository.Save | server/src/main/java/trivia/repository/RedisQuestionRepository.java:27-32 | The question's score under "q__" + category rises by one and is answered. The key's member set gains only that question, the key's other members keep their scores, and other keys are unchanged. |
| RedisQuestionRepository.Find | server/src/main/java/trivia/repository/RedisQuestionRepository.java:38-42 | Exactly the category's questions, each once, by ascending score. |
| RedisQuestionRepository.ListCategories | server/src/main/java/trivia/repository/RedisQuestionRepository.java:44-49 | A category is listed exactly when its "q__" sorted set is non-empty. |
| RedisQuestionRepository.SaveThenFindAndList | server/src/main/java/trivia/repository/RedisQuestionRepository.java:27-49 | A saved question is found under its category and the category gets listed. Saving it again adds no member and raises its score by one. |
| DefaultGameService.CreateGame | server/src/main/java/trivia/service/DefaultGameService.java:29-38 | The new store and the game's id are exactly what the repository's createGame gives. The game has that id, the category, not started and 0 players. The counter moves by one and members, pending scores, pool and messages are untouched. On a reachable store findGame gives back that same game. |
| DefaultGameService.JoinGame | server/src/main/java/trivia/service/DefaultGameService.java:40-43 | Exactly the repository's addPlayer, whatever the session id. So the join succeeds iff the game exists, is not started and lacks the user. |
| DefaultGameService.AnswerQuestion | server/src/main/java/trivia/service/DefaultGameService.java:45-48 | Always fails as unsupported. |
| DefaultGameService.PollForGamesWithEnoughPlayers | server/src/main/java/trivia/service/DefaultGameService.java:54-57 | Starts at most 100 distinct games, each pending with score at least 3, each then marked started and out of the pending index, with only `started` added to its hash and its other fields, such as the category, kept. An eligible game is left out only when the batch is full. Games outside the batch keep their hash and pending score, so those short of 3 are untouched. If fewer than 100 start, every eligible game starts. The ids are published in order. Counter, members and pool are unchanged. On a reachable store the invariant holds after and every started game has at least 3 members. |
| DefaultQuestionService.AllocateQuestions | server/src/main/java/trivia/service/DefaultQuestionService.java:29-34 | Succeeds iff the repository gives exactly numRounds questions, and then returns them unchanged. Fewer or more yields InsufficientData("Not enough questions to allocate " + numRounds). |
| DefaultQuestionService.NotEnoughMessage | server/src/main/java/trivia/service/DefaultQuestionService.java:33 | The refusal text is "Not enough questions to allocate " followed by the round count in decimal with no leading zero, which parses back to the count, with a minus sign for a negative count. |
| DefaultQuestionService.ListCategories | server/src/main/java/trivia/service/DefaultQuestionService.java:24-27 | The repository's categories unchanged: those with a saved question. |
| WebSocketGameHandler.IsGame | server/src/main/java/trivia/api/WebSocketGameHandler.java:134-136 | A session matches exactly when it has a gameId URI variable equal to the id ignoring case. |
| WebSocketGameHandler.Recipients | server/src/main/java/trivia/api/WebSocketGameHandler.java:104-108 | A broadcast reaches exactly the open sessions the filter accepts. |
| WebSocketGameHandler.RecipientsIgnoreCase | server/src/main/java/trivia/api/WebSocketGameHandler.java:134-136 | Two case-variants of an id reach the same sessions. |
| WebSocketGameHandler.OnOpen | server/src/main/java/trivia/api/WebSocketGameHandler.java:60-72 | The registry gains the user only if absent, and an existing session is kept. The store changes as joinGame changes it. PlayerJoined with the user and the new count is broadcast to that game exactly when the join succeeds. |
| WebSocketGameHandler.AnswerReply | server/src/main/java/trivia/api/WebSocketGameHandler.java:85-88 | PlayerAdvanced for a right answer, PlayerEliminated for a wrong one, naming the user. |
| WebSocketGameHandler.OnMessage | server/src/main/java/trivia/api/WebSocketGameHandler.java:77-89 | On a service answer, exactly one reply goes to the answering session only. On a service failure, the failure passes through and nothing is sent. |
| WebSocketGameHandler.MessagesGetNoReply | server/src/main/java/trivia/api/WebSocketGameHandler.java:77-89 | With the current service, a message always ends in failure. |
| WebSocketGameHandler.OnClose | server/src/main/java/trivia/api/WebSocketGameHandler.java:94-102 | Removes only the user's entry, keeps every other entry, and takes no game state. |
| WebSocketGameHandler.OpenThenCloseRestoresRegistry | server/src/main/java/trivia/api/WebSocketGameHandler.java:60-102 | For a user without a session, opening then closing restores the registry. |
| WebSocketGameHandler.BroadcastGameStarted | server/src/main/java/trivia/api/WebSocketGameHandler.java:104-108 | GameStarted with the id, broadcast to that game. |
| WebSocketGameHandler.RelayGameChannel | server/src/main/java/trivia/api/WebSocketGameHandler.java:43-49 | One GameStarted broadcast per published message, in order. |
| WebSocketGameHandler.StartedGamesAreAnnounced | server/src/main/java/trivia/api/WebSocketGameHandler.java:43-49 | The games a poll starts are each announced to their own game, in start order. |
| WebSocketGameHandler.ShuffleFirst | server/src/main/java/trivia/api/WebSocketGameHandler.java:114 | The shuffle keeps length and contents: the result is a permutation. |
| WebSocketGameHandler.BroadcastRoundStarted | server/src/main/java/trivia/api/WebSocketGameHandler.java:110-122 | The round and question text, plus answers that are a permutation of the incorrect answers and the correct one. So there is one more answer than the incorrect ones and the correct one is there. It is broadcast to that game. |
| WebSocketGameHandler.BroadcastRoundCompleted | server/src/main/java/trivia/api/WebSocketGameHandler.java:124-132 | The round, the question's correct answer and the stats unchanged, broadcast to that game. |
| App.Increment | client/src/App.js:90-93 | One more vote for an answer, absent counting as 0. A new answer is added and every other count is kept. Keys stay distinct. |
| App.MaxCount | client/src/App.js:113-114 | No count exceeds it, and some answer reaches it when there is any answer. An empty tally gives a value below every count. |
| App.AnswersWithCount | client/src/App.js:115 | Exactly the answers whose count equals the given value, each once. |
| App.GetResults | client/src/App.js:110-116 | Every result is an answer of the tally, and a non-empty tally gives at least one result. |
| App.GetResultsAreTopAnswers | client/src/App.js:110-116 | On a tally with distinct keys, getResults returns exactly the answers no other answer outcounts, each once. |
| App.AnnouncementNamesSoleWinner | client/src/App.js:110-119 | The alert names the single top answer when there is one. It says Undetermined on a tie or an empty tally. |
| App.SetUserAnswer | client/src/App.js:88-96 | The answer's count rises by one, other counts and other state are unchanged, and the user's answer becomes that answer. |
| App.SetNextQuestion | client/src/App.js:98-108 | Defined exactly when the next index is on the list. Then counter and questionId each step by one, the question and options come from that entry, and the answer is cleared. The tally, the current game, the new-game form and the result are kept. |
| App.SetResultsAsWritten | client/src/App.js:118-129 | Alerts the sole result or Undetermined. It returns to the game list and clears the result, the form, the question and the counter. It keeps questionId, the tally, the answer options and the user's answer. |
| App.SetResults | client/src/App.js:118-129 | The same announcement, and the same clearing of the game, result, form, question and counter, with the answer options kept. It also resets questionId to 1, the tally to empty and the answer to empty. |
| App.HandleAnswerSelected | client/src/App.js:79-86 | An alert happens exactly when questionId has reached the question count, and it announces the tally including this answer. Before that, counter and questionId advance by one and the vote is counted. At the end, as written, the view returns to the list and the counter to 0, but questionId and the tally (with this vote) are kept. |
| App.HandleAnswerSelectedCorrected | client/src/App.js:79-86 | The same handler with the corrected setResults: identical before the last question, and at the end questionId is back to 1 and the tally is empty. |
| App.GameTakesEveryQuestion | client/src/App.js:79-129 | From question k of n, the game takes exactly n - k + 1 answers, alerts once, on the last answer, and ends on the game list with counter 0. With the corrected reset it ends at question 1 with an empty tally; as written it ends with questionId still n. |
| App.NextGameAfterFinish | client/src/App.js:66-129 | After a full game and "new game", the as-written handler alerts on the very first answer, while the corrected one (with at least two questions) does not. |
| App.SecondGameEndsEarlyAsWritten | client/src/App.js:118-129 | As written, with two questions, a second game ends on its first answer with "Undetermined", and its tally still holds the first game's vote for "a". |
| App.SecondGameRunsFullLength | client/src/App.js:118-129 | With the corrected reset, the same second game raises no alert on its first answer and its tally holds only its own vote. |
| App.Render | client/src/App.js:172 | The game view is shown exactly while currentGame > 0. |
| App.HandleNewGame | client/src/App.js:66-71 | Creating a game opens the game view and changes nothing else. |
| App.HandleGameSelected | client/src/App.js:73-77 | Selecting a game records its id, opens the game view exactly when the id is positive, and changes nothing else. |
| App.ViewFollowsTheGame | client/src/App.js:79-86 | An answer before the last question leaves the view as it was; the last answer returns to the game list, with either setResults. |

## Left out

- Reactive plumbing:
  - The Mono/Flux chains are modelled as one sequential step per call.
  - `addPlayer`'s separate HGETALL, SADD and fire-and-forget ZADD are one atomic transition.
  - MULTI/EXEC in `startPendingGames` is modelled as each game's three commands applied together.
  - Concurrent callers are not modelled.
- Pub/sub subscription (`subscribeToGameChannel`) is not modelled. Publishing appends to `Store.published`. The handler's relay is `RelayGameChannel` over those messages. `@PostConstruct`/`@PreDestroy` wiring and `close` are not modelled.
- Sorted-set scores are Redis doubles. They are modelled as natural numbers, because they only ever grow by whole increments or hold member counts.
- Long and int width are not modelled:
  - the counter is an unbounded nat, so INCR overflow past 2^63 - 1 is not modelled;
  - `Long.intValue` truncation of the player count is not modelled.
- The order ZRANGE gives to questions of equal score is left unspecified: Redis orders them by their JSON encoding, and JSON is not modelled. ZRANGEBYSCORE ties among game ids are broken by character code, which equals Redis's byte order for the ASCII ids the counter makes.
- Jackson encoding and decoding of questions, and the `@type` tag of game messages, are not modelled. A question is stored as a `Question` value, so two questions are the same member exactly when all their fields are equal.
- Strings.ParseBoolean: only ASCII letters are case-folded, not the full Unicode folding of `Character.toUpperCase`/`toLowerCase`.
- Strings.EqualsIgnoreCaseIsLowerCaseEquality: the same ASCII-only case folding, so the game filter is exact only for ASCII ids.
- RedisGameRepository.KeyHelpersDisjoint states that the game id "" would address the counter's key `game:`. The model keeps the counter in its own field, so a write through that id is not modelled as clobbering the counter.
- Fields answers an empty hash for the game id "". In Redis, once the counter exists, HGETALL on `game:` is a WRONGTYPE error, because that key holds the counter string. The model does not raise that error, so findGame and addPlayer on "" answer empty rather than failing.
- The WebSocket broadcaster, session sending and logging are not modelled. A handler answers the deliveries it asks for as a list of `Delivery` values.
- `Collections.shuffle`'s randomness is the parameter `draw` of `ShuffleFirst`. Only the resulting permutation is claimed.
- `answerQuestion` throws synchronously in the service. It is modelled as a `Failure` result.
- `DefaultQuestionService.AllocateQuestions`: the repository's allocation is the function parameter `allocate`. The configured round count is a parameter, and its positivity is not stated.
- Difficulty.java is not part of this model. A question's difficulty is a string.
- App.js: `componentDidMount`, `getMessage`, the new-game name and category setters, the `setTimeout` delays and the rendered components are not modelled. The handlers' setState updates are taken to apply in call order.
- `App.SetResults`: the corrected reset does not restore the first question's text and options, which the source sets only in `componentDidMount`.
- App.Increment: the tally is a map from answer text to count, so an answer named like an `Object.prototype` member ("toString", "constructor", "valueOf", "hasOwnProperty", "__proto__") counts from 0 as any other. In App.js the object literal inherits those names, `answersCount[answer] || 0` reads the inherited value, and `+ 1` turns the count into a string, after which `Math.max` gives NaN and no answer is a result. Such answers are not modelled; the answers offered are the fixed options of the question list.
- App.SetUserAnswer: inherits the same limit from App.Increment, and so do App.GetResults, App.GetResultsAreTopAnswers and App.AnnouncementNamesSoleWinner, which for such a tally would in App.js give no result and "Undetermined".
- `Object.keys` lists integer-like keys first. The tally keeps insertion order, which only affects the order of tied results.
- The older `GameService`/`GameRepository` interfaces are not modelled. Their signatures disagree with the classes above.
- The `Game` class declares title and round fields. The repository and service build games with a category and a started flag, and the model follows them.
- Round scheduling is not modelled. It appears only in tests and has no counterpart in the repository code.

## Findings

| source | as written | input that shows it | evidently intended | confidence | as-written member | corrected member |
|---|---|---|---|---|---|---|
| client/src/App.js:118-129 | `setResults` resets the counter but not `questionId` or `answersCount` | Two questions. Answer "a" then "b" to finish game 1, then start a new game and answer "c". The second game ends at once on "Undetermined", judging a tally with a, b and c. | A new game starts at question 1 with an empty tally, as the constructor sets up | high, not executed | App.SetResultsAsWritten, shown by App.SecondGameEndsEarlyAsWritten | App.SetResults, used by App.HandleAnswerSelectedCorrected; proved by App.GameTakesEveryQuestion, App.NextGameAfterFinish and App.SecondGameRunsFullLength |

=== FILE: app.dfy ===
/** The React client's quiz flow: tallying the player's answers, stepping
    through the question list, picking the most frequent answer at the end, and
    choosing between the game list and the game view.

    React's asynchronous setState and the 600 ms timeouts are taken to run in
    order, one handler after the other. */
module App {
  import opened Wrappers
  import opened Sequences

  /** One entry of the static question list the client plays. */
  datatype QuizItem = QuizItem(question: string, answers: seq<string>)

  /** One property of the answersCount object: an answer and its count. */
  datatype Entry = Entry(answer: string, count: nat)

  /** The answersCount object, its properties in enumeration order. */
  type Tally = seq<Entry>

  function Keys(t: Tally): (ks: seq<string>)
    ensures |ks| == |t|
    ensures forall i :: 0 <= i < |t| ==> ks[i] == t[i].answer
  {
    if |t| == 0 then [] else [t[0].answer] + Keys(t[1..])
  }

  /** An object has each property once. */
  predicate WellFormed(t: Tally) {
    Distinct(Keys(t))
  }

  /** answersCount[a] || 0: the count of a, zero when a is not a property. */
  function Count(t: Tally, a: string): nat {
    if |t| == 0 then 0
    else if t[0].answer == a then t[0].count
    else Count(t[1..], a)
  }

  /** A well-formed tally splits into a head whose answer the tail lacks and a
      well-formed tail. */
  lemma HeadNotInTail(t: Tally)
    requires |t| > 0
    ensures Keys(t) == [t[0].answer] + Keys(t[1..])
    ensures WellFormed(t) <==> t[0].answer !in Keys(t[1..]) && WellFormed(t[1..])
  {
    DistinctCons(t[0].answer, Keys(t[1..]));
  }

  lemma {:induction false} CountOfEntry(t: Tally, i: nat)
    requires WellFormed(t) && i < |t|
    ensures Count(t, t[i].answer) == t[i].count
    decreases |t|
  {
    if i > 0 {
      HeadNotInTail(t);
      assert Keys(t)[0] != Keys(t)[i];
      CountOfEntry(t[1..], i - 1);
    }
  }

  /** The tally after one more vote for a: a's count (absent counts as zero)
      goes up by one, a new answer is added as the last property, and every
      other count stays as it was. */
  function Increment(t: Tally, a: string): (r: Tally)
    ensures Count(r, a) == Count(t, a) + 1
    ensures forall b :: b != a ==> Count(r, b) == Count(t, b)
    ensures forall b :: b in Keys(r) <==> b in Keys(t) || b == a
    ensures WellFormed(t) ==> WellFormed(r)
    decreases |t|
  {
    if |t| == 0 then [Entry(a, 1)]
    else if t[0].answer == a then [Entry(a, t[0].count + 1)] + t[1..]
    else
      var r := [t[0]] + Increment(t[1..], a);
      HeadNotInTail(t);
      assert r[1..] == Increment(t[1..], a);
      HeadNotInTail(r);
      r
  }

  // ------------------------------------------------------------------ results

  /** The largest count; -1 for an empty tally, standing for the -Infinity that
      Math.max gives with no arguments (no count equals either). */
  function MaxCount(t: Tally): (m: int)
    ensures forall i :: 0 <= i < |t| ==> t[i].count <= m
    ensures |t| == 0 ==> m < 0
    ensures |t| > 0 ==> exists i :: 0 <= i < |t| && t[i].count == m
    decreases |t|
  {
    if |t| == 0 then -1
    else
      var rest := MaxCount(t[1..]);
      if t[0].count >= rest then t[0].count
      else
        var i :| 0 <= i < |t[1..]| && t[1..][i].count == rest;
        assert t[i + 1].count == rest;
        rest
  }

  /** The answers of the tally whose count is m, in enumeration order. */
  function AnswersWithCount(t: Tally, m: int): (r: seq<string>)
    ensures forall i :: 0 <= i < |t| && t[i].count == m ==> t[i].answer in r
    ensures forall a :: a in r ==> a in Keys(t)
    ensures WellFormed(t) ==> Distinct(r) && forall a :: a in r ==> Count(t, a) == m
    decreases |t|
  {
    if |t| == 0 then []
    else
      var rest := AnswersWithCount(t[1..], m);
      HeadNotInTail(t);
      assert forall a :: a in rest && a != t[0].answer ==> Count(t, a) == Count(t[1..], a);
      if t[0].count == m then
        DistinctCons(t[0].answer, rest);
        [t[0].answer] + rest
      else rest
  }

  /** getResults: the answers whose count equals the largest count; only
      answers that were given, and at least one once any answer was given. */
  function GetResults(t: Tally): (r: seq<string>)
    ensures forall a :: a in r ==> a in Keys(t)
    ensures |t| > 0 ==> |r| > 0
  {
    var r := AnswersWithCount(t, MaxCount(t));
    assert |t| > 0 ==> |r| > 0 by {
      if |t| > 0 {
        var j :| 0 <= j < |t| && t[j].count == MaxCount(t);
        assert t[j].answer in r;
      }
    }
    r
  }

  /** The independent description of a winning answer: one of the tally's
      answers whose count no other answer beats. */
  predicate IsTop(t: Tally, a: string) {
    a in Keys(t) && forall b :: b in Keys(t) ==> Count(t, b) <= Count(t, a)
  }

  /** No answer's count exceeds the largest count. */
  lemma CountAtMostMax(t: Tally, b: string)
    requires WellFormed(t) && b in Keys(t)
    ensures Count(t, b) <= MaxCount(t)
  {
    var j :| 0 <= j < |t| && Keys(t)[j] == b;
    CountOfEntry(t, j);
  }

  lemma ResultIsTop(t: Tally, a: string)
    requires WellFormed(t) && a in GetResults(t)
    ensures IsTop(t, a)
  {
    forall b | b in Keys(t)
      ensures Count(t, b) <= Count(t, a)
    {
      CountAtMostMax(t, b);
    }
  }

  lemma TopIsResult(t: Tally, a: string)
    requires WellFormed(t) && IsTop(t, a)
    ensures a in GetResults(t)
  {
    var i :| 0 <= i < |t| && Keys(t)[i] == a;
    CountOfEntry(t, i);
    var j :| 0 <= j < |t| && t[j].count == MaxCount(t);
    CountOfEntry(t, j);
    assert Keys(t)[j] in Keys(t);
    assert t[i].count == MaxCount(t);
  }

  /** getResults lists exactly the top answers, each once. */
  lemma GetResultsAreTopAnswers(t: Tally)
    requires WellFormed(t)
    ensures forall a :: a in GetResults(t) <==> IsTop(t, a)
    ensures Distinct(GetResults(t))
  {
    forall a
      ensures a in GetResults(t) <==> IsTop(t, a)
    {
      if a in GetResults(t) {
        ResultIsTop(t, a);
      }
      if IsTop(t, a) {
        TopIsResult(t, a);
      }
    }
  }

  /** The answer announced at the end: the sole result, or 'Undetermined'. */
  function Announcement(result: seq<string>): string {
    if |result| == 1 then result[0] else "Undetermined"
  }

  /** The set of top answers of a tally. */
  function TopAnswers(t: Tally): set<string> {
    set a | a in Keys(t) && IsTop(t, a)
  }

  lemma {:induction false} DistinctCardinality(xs: seq<string>)
    requires Distinct(xs)
    ensures |set x | x in xs| == |xs|
    decreases |xs|
  {
    if |xs| > 0 {
      DistinctCardinality(xs[1..]);
      assert (set x | x in xs) == (set x | x in xs[1..]) + {xs[0]};
      assert xs[0] !in xs[1..];
    }
  }

  lemma TopAnswersListed(t: Tally)
    requires WellFormed(t)
    ensures TopAnswers(t) == set x | x in GetResults(t)
  {
    var r := GetResults(t);
    forall a | a in r
      ensures a in TopAnswers(t)
    {
      ResultIsTop(t, a);
    }
    forall a | a in TopAnswers(t)
      ensures a in r
    {
      TopIsResult(t, a);
    }
  }

  lemma TopAnswersCounted(t: Tally)
    requires WellFormed(t)
    ensures |TopAnswers(t)| == |GetResults(t)|
  {
    TopAnswersListed(t);
    DistinctCardinality(GetResults(t));
  }

  /** The end of a game announces the single top answer when there is one,
      and 'Undetermined' when answers tie for the top or none was given. */
  lemma AnnouncementNamesSoleWinner(t: Tally)
    requires WellFormed(t)
    ensures |TopAnswers(t)| == 1 ==> TopAnswers(t) == {Announcement(GetResults(t))}
    ensures |TopAnswers(t)| != 1 ==> Announcement(GetResults(t)) == "Undetermined"
  {
    var r := GetResults(t);
    var top := TopAnswers(t);
    TopAnswersCounted(t);
    if |r| == 1 {
      ResultIsTop(t, r[0]);
      assert r[0] in top;
      assert |top - {r[0]}| == 0;
      assert top == {Announcement(r)};
    }
  }

  // -------------------------------------------------------------------- state

  /** The component state that the quiz flow reads and writes. */
  datatype AppState = AppState(
    currentGame: int,
    newGameName: string,
    newGameCategory: string,
    counter: int,
    questionId: int,
    question: string,
    answerOptions: seq<string>,
    userAnswer: string,
    answersCount: Tally,
    result: string)

  /** The state the constructor sets up. */
  function InitialState(): AppState {
    AppState(0, "", "All", 0, 1, "", [], "", [], "")
  }

  /** setUserAnswer: one more vote for the answer, which becomes the user's
      answer; nothing else changes. */
  function SetUserAnswer(st: AppState, answer: string): (r: AppState)
    ensures Count(r.answersCount, answer) == Count(st.answersCount, answer) + 1
    ensures forall b :: b != answer ==> Count(r.answersCount, b) == Count(st.answersCount, b)
    ensures r.userAnswer == answer
    ensures r == st.(answersCount := r.answersCount, userAnswer := answer)
    ensures WellFormed(st.answersCount) ==> WellFormed(r.answersCount)
  {
    st.(answersCount := Increment(st.answersCount, answer), userAnswer := answer)
  }

  /** setNextQuestion: counter and questionId both step by one, the question
      shown is the list's entry at the new counter and the user's answer is
      cleared. Reading past the end of the list throws, which is the None. */
  function SetNextQuestion(st: AppState, questions: seq<QuizItem>): (r: Option<AppState>)
    ensures r.Some? <==> 0 <= st.counter + 1 < |questions|
    ensures r.Some? ==>
      && r.value.counter == st.counter + 1
      && r.value.questionId == st.questionId + 1
      && r.value.userAnswer == ""
      && r.value.question == questions[st.counter + 1].question
      && r.value.answerOptions == questions[st.counter + 1].answers
      && r.value.answersCount == st.answersCount
      && r.value.currentGame == st.currentGame
      && r.value.newGameName == st.newGameName && r.value.newGameCategory == st.newGameCategory
      && r.value.result == st.result
  {
    var counter := st.counter + 1;
    if 0 <= counter < |questions| then
      Some(st.(counter := counter, questionId := st.questionId + 1,
               question := questions[counter].question,
               answerOptions := questions[counter].answers,
               userAnswer := ""))
    else None
  }

  /** setResults as written: announce the sole result or 'Undetermined', go
      back to the game list and clear the new-game form and the counter, but
      keep questionId and the tally of the game just played. */
  function SetResultsAsWritten(st: AppState, result: seq<string>): (r: (AppState, string))
    ensures |result| == 1 ==> r.1 == result[0]
    ensures |result| != 1 ==> r.1 == "Undetermined"
    ensures r.0.currentGame == 0 && r.0.counter == 0
    ensures r.0.newGameName == "" && r.0.newGameCategory == "All"
    ensures r.0.result == "" && r.0.question == ""
    ensures r.0.questionId == st.questionId && r.0.answersCount == st.answersCount
    ensures r.0.userAnswer == st.userAnswer && r.0.answerOptions == st.answerOptions
  {
    (st.(result := "", currentGame := 0, newGameName := "", newGameCategory := "All",
         question := "", counter := 0),
     Announcement(result))
  }

  /** setResults as intended: as written, and also back to the first question
      with an empty tally and no answer selected, as the constructor starts. */
  function SetResults(st: AppState, result: seq<string>): (r: (AppState, string))
    ensures |result| == 1 ==> r.1 == result[0]
    ensures |result| != 1 ==> r.1 == "Undetermined"
    ensures r.0.currentGame == 0 && r.0.counter == 0
    ensures r.0.newGameName == "" && r.0.newGameCategory == "All"
    ensures r.0.result == "" && r.0.question == "" && r.0.answerOptions == st.answerOptions
    ensures r.0.questionId == 1 && r.0.answersCount == [] && r.0.userAnswer == ""
  {
    var (st', shown) := SetResultsAsWritten(st, result);
    (st'.(questionId := 1, answersCount := [], userAnswer := ""), shown)
  }

  /** The handler's body, shared by App.js's version and the corrected
      one: record the vote, then move to the next question while questionId is
      below the number of questions, otherwise finish the game with its
      results; `corrected` picks the finish. Answers the announcement made. */
  function AnswerStep(st: AppState, answer: string, questions: seq<QuizItem>, corrected: bool)
    : (r: (AppState, Option<string>))
    ensures r.1.Some? <==> st.questionId >= |questions|
    ensures st.questionId < |questions| && 0 <= st.counter < st.questionId ==>
      r.0.questionId == st.questionId + 1 && r.0.counter == st.counter + 1
      && Count(r.0.answersCount, answer) == Count(st.answersCount, answer) + 1
    ensures st.questionId >= |questions| ==>
      && r.1 == Some(Announcement(GetResults(SetUserAnswer(st, answer).answersCount)))
      && r.0.currentGame == 0 && r.0.counter == 0
      && (corrected ==> r.0.questionId == 1 && r.0.answersCount == [])
      && (!corrected ==> r.0.questionId == st.questionId
                         && r.0.answersCount == SetUserAnswer(st, answer).answersCount)
  {
    var st1 := SetUserAnswer(st, answer);
    if st.questionId < |questions| then
      match SetNextQuestion(st1, questions)
      case Some(st2) => (st2, None)
      case None => (st1, None)
    else
      var result := GetResults(st1.answersCount);
      var (st2, shown) := if corrected then SetResults(st1, result) else SetResultsAsWritten(st1, result);
      (st2, Some(shown))
  }

  /** handleAnswerSelected as written: an announcement exactly on an answer
      given at or past the last questionId; before it counter and questionId
      step on and the vote is counted; at it the tally including this answer
      is judged, and questionId and that tally are kept for the next game. */
  function HandleAnswerSelected(st: AppState, answer: string, questions: seq<QuizItem>)
    : (r: (AppState, Option<string>))
    ensures r.1.Some? <==> st.questionId >= |questions|
    ensures st.questionId < |questions| && 0 <= st.counter < st.questionId ==>
      r.0.questionId == st.questionId + 1 && r.0.counter == st.counter + 1
      && Count(r.0.answersCount, answer) == Count(st.answersCount, answer) + 1
    ensures st.questionId >= |questions| ==>
      && r.1 == Some(Announcement(GetResults(SetUserAnswer(st, answer).answersCount)))
      && r.0.currentGame == 0 && r.0.counter == 0
      && r.0.questionId == st.questionId
      && r.0.answersCount == SetUserAnswer(st, answer).answersCount
  {
    AnswerStep(st, answer, questions, false)
  }

  /** handleAnswerSelected with the corrected setResults: the same, except
      that the game's end goes back to questionId 1 with an empty tally. */
  function HandleAnswerSelectedCorrected(st: AppState, answer: string, questions: seq<QuizItem>)
    : (r: (AppState, Option<string>))
    ensures r.1.Some? <==> st.questionId >= |questions|
    ensures st.questionId < |questions| && 0 <= st.counter < st.questionId ==>
      r.0.questionId == st.questionId + 1 && r.0.counter == st.counter + 1
      && Count(r.0.answersCount, answer) == Count(st.answersCount, answer) + 1
    ensures st.questionId >= |questions| ==>
      && r.1 == Some(Announcement(GetResults(SetUserAnswer(st, answer).answersCount)))
      && r.0.currentGame == 0 && r.0.counter == 0
      && r.0.questionId == 1 && r.0.answersCount == []
  {
    AnswerStep(st, answer, questions, true)
  }

  /** A sequence of answers, one handler call each, with the as-written finish
      or the corrected one; the announcements made on the way, in order. */
  function Play(st: AppState, answers: seq<string>, questions: seq<QuizItem>, corrected: bool)
    : (AppState, seq<string>)
    decreases |answers|
  {
    if |answers| == 0 then (st, [])
    else
      var (st1, shown) := AnswerStep(st, answers[0], questions, corrected);
      var (st2, later) := Play(st1, answers[1..], questions, corrected);
      (st2, (if shown.Some? then [shown.value] else []) + later)
  }

  /** On a question list of n entries, a game in progress at questionId k takes
      exactly n - k + 1 more answers and announces once, at the last of them,
      with either finish. The corrected finish leaves the quiz ready for a new
      game from its first question; the as-written one leaves questionId at n. */
  lemma {:induction false} GameTakesEveryQuestion(st: AppState, answers: seq<string>, questions: seq<QuizItem>, corrected: bool)
    requires 1 <= st.questionId <= |questions| && st.counter == st.questionId - 1
    requires |answers| == |questions| - st.questionId + 1
    ensures |Play(st, answers, questions, corrected).1| == 1
    ensures Play(st, answers[..|answers| - 1], questions, corrected).1 == []
    ensures var end := Play(st, answers, questions, corrected).0;
      end.counter == 0 && end.currentGame == 0
    ensures var end := Play(st, answers, questions, corrected).0;
      corrected ==> end.questionId == 1 && end.answersCount == []
    ensures var end := Play(st, answers, questions, corrected).0;
      !corrected ==> end.questionId == |questions|
    decreases |answers|
  {
    if st.questionId < |questions| {
      var st1 := AnswerStep(st, answers[0], questions, corrected).0;
      GameTakesEveryQuestion(st1, answers[1..], questions, corrected);
      assert answers[1..][..|answers[1..]| - 1] == answers[..|answers| - 1][1..];
    } else {
      assert |answers| == 1;
      assert answers[..0] == [];
    }
  }

  /** Once a game is over, the next game's first answer announces at once
      under the as-written finish, while under the corrected one a list of at
      least two questions goes on to its second question. */
  lemma NextGameAfterFinish(st: AppState, answers: seq<string>, questions: seq<QuizItem>, answer: string)
    requires 1 <= st.questionId <= |questions| && st.counter == st.questionId - 1
    requires |answers| == |questions| - st.questionId + 1
    ensures HandleAnswerSelected(HandleNewGame(Play(st, answers, questions, false).0), answer, questions).1.Some?
    ensures |questions| >= 2 ==>
      HandleAnswerSelectedCorrected(HandleNewGame(Play(st, answers, questions, true).0), answer, questions).1.None?
  {
    GameTakesEveryQuestion(st, answers, questions, false);
    GameTakesEveryQuestion(st, answers, questions, true);
  }

  /** The as-written finish with two questions: after a game answered "a" then
      "b", the next game announces on its first answer, "c", judging a tally
      that still holds the first game's votes. */
  lemma SecondGameEndsEarlyAsWritten()
    ensures var questions := [QuizItem("q1", ["a", "b"]), QuizItem("q2", ["b", "c"])];
      var (over, shown) := Play(InitialState(), ["a", "b"], questions, false);
      var (afterOne, announced) := HandleAnswerSelected(HandleNewGame(over), "c", questions);
      && shown == ["Undetermined"]
      && announced == Some("Undetermined")
      && Count(afterOne.answersCount, "a") == 1
  {
    var questions := [QuizItem("q1", ["a", "b"]), QuizItem("q2", ["b", "c"])];
    var st1 := HandleAnswerSelected(InitialState(), "a", questions).0;
    assert st1.questionId == 2 && st1.answersCount == [Entry("a", 1)];
    var st2 := SetUserAnswer(st1, "b");
    assert st2.answersCount == [Entry("a", 1), Entry("b", 1)];
    assert GetResults(st2.answersCount) == ["a", "b"];
    var over := Play(InitialState(), ["a", "b"], questions, false).0;
    assert over.answersCount == st2.answersCount && over.questionId == 2;
    var st3 := SetUserAnswer(HandleNewGame(over), "c");
    assert st3.answersCount == [Entry("a", 1), Entry("b", 1), Entry("c", 1)];
    assert GetResults(st3.answersCount) == ["a", "b", "c"];
  }

  /** The corrected finish on the same two games: the second game goes on to
      its second question after one answer, and its tally holds only its own
      vote. */
  lemma SecondGameRunsFullLength()
    ensures var questions := [QuizItem("q1", ["a", "b"]), QuizItem("q2", ["b", "c"])];
      var (over, shown) := Play(InitialState(), ["a", "b"], questions, true);
      var (afterOne, announced) := HandleAnswerSelectedCorrected(HandleNewGame(over), "c", questions);
      && shown == ["Undetermined"]
      && announced.None?
      && afterOne.answersCount == [Entry("c", 1)]
  {
    var questions := [QuizItem("q1", ["a", "b"]), QuizItem("q2", ["b", "c"])];
    var st1 := HandleAnswerSelectedCorrected(InitialState(), "a", questions).0;
    assert st1.questionId == 2 && st1.answersCount == [Entry("a", 1)];
    var st2 := SetUserAnswer(st1, "b");
    assert st2.answersCount == [Entry("a", 1), Entry("b", 1)];
    assert GetResults(st2.answersCount) == ["a", "b"];
  }

  // --------------------------------------------------------------------- view

  datatype View = GameList | GameView

  /** render: the game view exactly while a game is selected (currentGame > 0),
      the game list otherwise. */
  function Render(st: AppState): (v: View)
    ensures v == GameView <==> st.currentGame > 0
  {
    if st.currentGame > 0 then GameView else GameList
  }

  /** handleGameSelected: the chosen game becomes current, which opens the game
      view exactly for a positive id; nothing else changes. */
  function HandleGameSelected(st: AppState, gameId: int): (r: AppState)
    ensures r.currentGame == gameId
    ensures Render(r) == GameView <==> gameId > 0
    ensures r == st.(currentGame := r.currentGame)
  {
    st.(currentGame := gameId)
  }

  /** handleNewGame: a placeholder game id, 999, becomes current, which opens
      the game view; nothing else changes. */
  function HandleNewGame(st: AppState): (r: AppState)
    ensures Render(r) == GameView
    ensures r == st.(currentGame := r.currentGame)
  {
    st.(currentGame := 999)
  }

  /** A game keeps the game view while questions remain, and its last answer
      returns to the game list, with either finish. */
  lemma ViewFollowsTheGame(st: AppState, answer: string, questions: seq<QuizItem>)
    requires 0 <= st.counter < st.questionId
    ensures st.questionId < |questions| ==>
      Render(HandleAnswerSelected(st, answer, questions).0) == Render(st)
      && Render(HandleAnswerSelectedCorrected(st, answer, questions).0) == Render(st)
    ensures st.questionId >= |questions| ==>
      Render(HandleAnswerSelected(st, answer, questions).0) == GameList
      && Render(HandleAnswerSelectedCorrected(st, answer, questions).0) == GameList
  {
  }
}

=== FILE: default_game_service.dfy ===
/** The game service: builds the lobby read model for a new game, delegates
    joins to the repository and drives the periodic start of full games. */
module DefaultGameService {
  import opened Wrappers
  import opened Strings
  import opened Domain
  import opened Sequences
  import Repo = RedisGameRepository

  /** The fixed number of players a game needs before it is started. */
  const MinPlayers: nat := 3

  datatype ServiceError = Unsupported(message: string)

  /** createGame: one repository createGame call, whose id is wrapped in a
      game of the given category with no players that has not started. */
  function CreateGame(s: Repo.Store, category: string): (r: (Repo.Store, Game))
    ensures (r.0, r.1.id) == Repo.CreateGame(s, category)
    ensures r.1.category == Some(category) && !r.1.started && r.1.players == 0
    ensures IsDigits(r.1.id) && ParseDecimal(r.1.id) == s.counter + 1
    ensures r.0.counter == s.counter + 1
    ensures r.0.players == s.players && r.0.pending == s.pending
    ensures r.0.pool == s.pool && r.0.published == s.published
    ensures Repo.Valid(s) ==> Repo.Valid(r.0) && Repo.FindGame(r.0, r.1.id) == Some(r.1)
  {
    var (s', id) := Repo.CreateGame(s, category);
    var game := Game(id, Some(category), false, 0);
    assert Repo.Valid(s) ==> Repo.FindGame(s', id) == Some(game) by {
      if Repo.Valid(s) {
        Repo.CreateThenFind(s, category);
      }
    }
    (s', game)
  }

  /** joinGame: exactly the repository's addPlayer for the game and user; the
      session id plays no part. */
  function JoinGame(s: Repo.Store, gameId: string, username: string, sessionId: string): (r: (Repo.Store, Option<Game>))
    ensures r == Repo.AddPlayer(s, gameId, username)
    ensures r.1.Some? <==>
      |Repo.Fields(s, gameId)| > 0 && Repo.StartedField !in Repo.Fields(s, gameId)
      && username !in Repo.Members(s, gameId)
    ensures r.1.Some? ==> r.1.value.players == |Repo.Members(s, gameId)| + 1 && !r.1.value.started
    ensures r.1.None? ==> r.0 == s
  {
    Repo.AddPlayer(s, gameId, username)
  }

  /** answerQuestion is not implemented: every call fails. */
  function AnswerQuestion(gameId: string, username: string, sessionId: string): (r: Result<bool, ServiceError>)
    ensures r.Failure? && r.error.Unsupported?
  {
    Failure(Unsupported("fix me"))
  }

  /** One tick of the scheduled poll: startPendingGames with MinPlayers.
      At most a batch of distinct pending games scoring at least MinPlayers
      start, an eligible game is left out only by a full batch, and every
      other game, score, member set and question is untouched. In a reachable
      store the score is the member count, so every started game has enough
      players and every game short of MinPlayers is left waiting. */
  method PollForGamesWithEnoughPlayers(s: Repo.Store) returns (s': Repo.Store, batch: seq<string>)
    ensures |batch| <= Repo.StartBatchLimit && Distinct(batch)
    ensures forall i :: 0 <= i < |batch| ==>
      && batch[i] in s.pending && s.pending[batch[i]] >= MinPlayers
      && Repo.MarkedStarted(s', batch[i]) && batch[i] !in s'.pending
      && s'.games[batch[i]].Keys == Repo.Fields(s, batch[i]).Keys + {Repo.StartedField}
    ensures forall i, f :: 0 <= i < |batch| && f in Repo.Fields(s, batch[i]) && f != Repo.StartedField ==>
      batch[i] in s'.games && f in s'.games[batch[i]] && s'.games[batch[i]][f] == Repo.Fields(s, batch[i])[f]
    ensures forall id :: id in s.pending && s.pending[id] >= MinPlayers && id !in batch ==>
      |batch| == Repo.StartBatchLimit
    ensures forall id :: id !in batch ==>
      && (id in s'.games <==> id in s.games)
      && (id in s.games ==> s'.games[id] == s.games[id])
      && (id in s'.pending <==> id in s.pending)
      && (id in s.pending ==> s'.pending[id] == s.pending[id])
    ensures forall id :: id in s.pending && s.pending[id] < MinPlayers ==>
      id in s'.pending && s'.pending[id] == s.pending[id] &&
      (id in s.games ==> id in s'.games && s'.games[id] == s.games[id])
    ensures |batch| < Repo.StartBatchLimit ==>
      forall id :: id in s.pending && s.pending[id] >= MinPlayers ==> Repo.MarkedStarted(s', id)
    ensures s'.published == s.published + Repo.StartedMessages(batch)
    ensures s'.counter == s.counter && s'.players == s.players && s'.pool == s.pool
    ensures Repo.Valid(s) ==> Repo.Valid(s') && forall i :: 0 <= i < |batch| ==>
      |Repo.Members(s, batch[i])| >= MinPlayers
  {
    s', batch := Repo.StartPendingGames(s, MinPlayers);
    forall id | id in s.pending && s.pending[id] < MinPlayers
      ensures id !in batch
    {
      forall i | 0 <= i < |batch|
        ensures batch[i] != id
      {
      }
    }
    if |batch| < Repo.StartBatchLimit {
      forall id | id in s.pending && s.pending[id] >= MinPlayers
        ensures Repo.MarkedStarted(s', id)
      {
        var i :| 0 <= i < |batch| && batch[i] == id;
      }
    }
  }
}

=== FILE: default_question_service.dfy ===
/** The question service: hands a new game exactly the configured number of
    questions, or refuses. */
module DefaultQuestionService {
  import opened Wrappers
  import opened Strings
  import opened Domain
  import Repo = RedisGameRepository

  datatype QuestionError = InsufficientData(message: string)

  const NotEnoughText := "Not enough questions to allocate "

  /** The message of the refusal: the fixed text followed by the round count
      in decimal. */
  function NotEnoughMessage(numRounds: int): (m: string)
    ensures |m| > |NotEnoughText| && m[..|NotEnoughText|] == NotEnoughText
    ensures numRounds >= 0 ==>
      && IsDigits(m[|NotEnoughText|..]) && ParseDecimal(m[|NotEnoughText|..]) == numRounds
      && (|m| > |NotEnoughText| + 1 ==> m[|NotEnoughText|] != '0')
    ensures numRounds < 0 ==>
      && m[|NotEnoughText|] == '-'
      && IsDigits(m[|NotEnoughText| + 1..])
      && ParseDecimal(m[|NotEnoughText| + 1..]) == -numRounds
      && (|m| > |NotEnoughText| + 2 ==> m[|NotEnoughText| + 1] != '0')
  {
    var digits := IntToDecimal(numRounds);
    var m := NotEnoughText + digits;
    assert m[..|NotEnoughText|] == NotEnoughText && m[|NotEnoughText|..] == digits;
    assert numRounds < 0 ==> m[|NotEnoughText| + 1..] == digits[1..];
    m
  }

  /** allocateQuestions: ask the repository for numRounds questions of the
      category and accept the answer only when it holds exactly numRounds of
      them; fewer and more are both refused. The repository's allocation is
      the parameter allocate. */
  function AllocateQuestions(allocate: (string, int) -> seq<Question>, category: string, numRounds: int)
    : (r: Result<seq<Question>, QuestionError>)
    ensures r.Success? <==> |allocate(category, numRounds)| == numRounds
    ensures r.Success? ==> r.value == allocate(category, numRounds) && |r.value| == numRounds
    ensures r.Failure? ==> r.error == InsufficientData(NotEnoughMessage(numRounds))
  {
    var qs := allocate(category, numRounds);
    if |qs| == numRounds then Success(qs)
    else Failure(InsufficientData(NotEnoughMessage(numRounds)))
  }

  /** listCategories: the repository's categories, unchanged; these are the
      categories with a saved question. */
  function ListCategories(s: Repo.Store): (cats: set<string>)
    ensures cats == Repo.ListCategories(s)
    ensures forall c :: c in cats <==>
      Repo.QuestionKey(c) in s.pool && |s.pool[Repo.QuestionKey(c)]| > 0
  {
    Repo.ListCategories(s)
  }
}

=== FILE: domain.dfy ===
/** The records the server passes around: a trivia question and the read
    model of a game lobby. */
module Domain {
  import opened Wrappers

  /** A question as stored in the pool. The difficulty is kept as the text the
      question data carries; Difficulty.java is not part of this model. */
  datatype Question = Question(
    category: string,
    difficulty: string,
    text: string,
    correctAnswer: string,
    incorrectAnswers: seq<string>)

  /** A game lobby as the repository reports it. The category is absent when
      the game hash has no category field (Java's null). */
  datatype Game = Game(id: string, category: Option<string>, started: bool, players: nat)
}

=== FILE: redis_game_repository.dfy ===
/** The Redis-backed game repository: question pool access, game id
    allocation, lobby membership, the pending-game index and the start of
    games that have enough players.

    The store is modelled as immutable maps. Each map stands for one family of
    Redis keys built by a key helper; KeyHelpersDisjoint shows that the helpers
    never address the same key for different arguments or families, which is
    what lets the families live in separate maps. */
module RedisGameRepository {
  import opened Wrappers
  import opened Strings
  import opened Domain
  import opened SortedSet
  import opened Sequences

  const QuestionKeyPrefix := "q:"
  const GameKeyPrefix := "game:"
  const PlayersKeyPrefix := "players:"
  const GamePendingKey := "games_pending:"
  const GameChannel := "game_channel:"

  // fields of a game hash
  const CategoryField := "category"
  const StartedField := "started"

  /** At most this many pending games are started per call. */
  const StartBatchLimit: nat := 100

  function QuestionKey(category: string): string { QuestionKeyPrefix + category }
  function GameKey(gameId: string): string { GameKeyPrefix + gameId }
  function PlayersKey(gameId: string): string { PlayersKeyPrefix + gameId }

  /** The key helpers are injective and their images are pairwise disjoint and
      miss the pending index. The one collision is the id counter, which lives
      at GameKeyPrefix itself, the key of the game with the empty id. */
  lemma KeyHelpersDisjoint(a: string, b: string)
    ensures QuestionKey(a) == QuestionKey(b) <==> a == b
    ensures GameKey(a) == GameKey(b) <==> a == b
    ensures PlayersKey(a) == PlayersKey(b) <==> a == b
    ensures GameKey(a) != PlayersKey(b)
    ensures GameKey(a) != QuestionKey(b)
    ensures PlayersKey(a) != QuestionKey(b)
    ensures GameKey(a) != GamePendingKey
    ensures PlayersKey(a) != GamePendingKey
    ensures QuestionKey(a) != GamePendingKey
    ensures GameKey(a) == GameKeyPrefix <==> a == ""
  {
    PrefixStrip(QuestionKeyPrefix, a, b);
    PrefixStrip(GameKeyPrefix, a, b);
    PrefixStrip(PlayersKeyPrefix, a, b);
    PrefixStrip(GameKeyPrefix, a, "");
    assert GameKey(a)[0] == 'g' && PlayersKey(b)[0] == 'p' && QuestionKey(b)[0] == 'q';
    assert PlayersKey(a)[0] == 'p' && QuestionKey(a)[0] == 'q';
    assert GameKey(a)[4] == ':' && GamePendingKey[4] == 's';
  }

  datatype Publication = Publication(channel: string, message: string)

  datatype Store = Store(
    counter: nat,                              // integer at GameKeyPrefix, bumped by INCR
    games: map<string, map<string, string>>,   // hash at GameKey(id), indexed by id
    players: map<string, set<string>>,         // set at PlayersKey(id), indexed by id
    pending: map<string, nat>,                 // sorted set at GamePendingKey
    pool: Keyspace<Question>,                  // sorted sets of questions, by full key
    published: seq<Publication>)               // every message published, oldest first

  /** The game hash carries started = "true". */
  predicate MarkedStarted(s: Store, gameId: string) {
    gameId in s.games && StartedField in s.games[gameId] && s.games[gameId][StartedField] == "true"
  }

  /** HGETALL GameKey(id): a missing hash reads as the empty map. */
  function Fields(s: Store, gameId: string): map<string, string> {
    if gameId in s.games then s.games[gameId] else map[]
  }

  /** SMEMBERS PlayersKey(id): a missing set reads as the empty set. */
  function Members(s: Store, gameId: string): set<string> {
    if gameId in s.players then s.players[gameId] else {}
  }

  /** The states the repository's own operations can reach from an empty
      store: every game id was handed out by the counter, every game has a
      category, a started game says so with "true", member sets and pending
      entries belong to existing games, and a pending game is unstarted and
      scored with its current player count. */
  predicate Valid(s: Store) {
    && (forall id :: id in s.games ==> IsDigits(id) && 1 <= ParseDecimal(id) <= s.counter)
    && (forall id :: id in s.games ==> CategoryField in s.games[id])
    && (forall id :: id in s.games && StartedField in s.games[id] ==> s.games[id][StartedField] == "true")
    && (forall id :: id in s.players ==> id in s.games)
    && (forall id :: id in s.pending ==>
          id in s.games && StartedField !in s.games[id] && s.pending[id] == |Members(s, id)|)
  }

  /** The store before any game exists: counter unset (0), no game hashes,
      member sets, pending entries or messages, and whatever questions were
      loaded. It is the base case of Valid. */
  function EmptyStore(pool: Keyspace<Question>): (s: Store)
    ensures Valid(s)
  {
    Store(0, map[], map[], map[], pool, [])
  }

  // ---------------------------------------------------------------- questions

  /** save: ZADD INCR 1 of the question under its category's key; answers the
      new score. Only the pool changes. */
  function Save(s: Store, q: Question): (r: (Store, nat))
    ensures var key := QuestionKey(q.category);
      && key in r.0.pool && q in r.0.pool[key] && r.1 == r.0.pool[key][q]
      && r.0.pool == IncrementAt(s.pool, key, q).0
    ensures r.0 == s.(pool := r.0.pool)
    ensures Valid(s) ==> Valid(r.0)
  {
    var (pool, score) := IncrementAt(s.pool, QuestionKey(q.category), q);
    (s.(pool := pool), score)
  }

  /** findQuestionsInCategory: ZRANGE 0 -1 of the category's key, i.e. every
      saved question of the category once, by ascending score. */
  method FindQuestionsInCategory(s: Store, category: string) returns (qs: seq<Question>)
    ensures Distinct(qs)
    ensures forall q :: q in qs <==> QuestionKey(category) in s.pool && q in s.pool[QuestionKey(category)]
    ensures QuestionKey(category) in s.pool ==> forall i, j :: 0 <= i < j < |qs| ==>
      s.pool[QuestionKey(category)][qs[i]] <= s.pool[QuestionKey(category)][qs[j]]
  {
    var key := QuestionKey(category);
    if key in s.pool {
      qs := Range(s.pool[key]);
    } else {
      qs := [];
    }
  }

  /** listCategories: KEYS "q:*" with the prefix cut off, i.e. the categories
      holding at least one saved question. */
  function ListCategories(s: Store): (cats: set<string>)
    ensures forall c :: c in cats <==>
      QuestionKey(c) in s.pool && |s.pool[QuestionKey(c)]| > 0
  {
    NamesUnder(s.pool, QuestionKeyPrefix)
  }

  /** After a save the question's category is listed, and no other category
      appears or disappears. */
  lemma SaveListsCategory(s: Store, q: Question)
    ensures ListCategories(Save(s, q).0) == ListCategories(s) + {q.category}
  {
    var s' := Save(s, q).0;
    forall c
      ensures c in ListCategories(s') <==> c in ListCategories(s) + {q.category}
    {
      KeyHelpersDisjoint(c, q.category);
    }
  }

  // -------------------------------------------------------------------- games

  /** createGame: INCR the counter, then HSET the category on the game hash
      whose id is the counter's new value in decimal. */
  function CreateGame(s: Store, category: string): (r: (Store, string))
    ensures IsDigits(r.1) && ParseDecimal(r.1) == s.counter + 1
    ensures |r.1| > 1 ==> r.1[0] != '0'
    ensures r.0.counter == s.counter + 1
    ensures r.1 in r.0.games && CategoryField in r.0.games[r.1] && r.0.games[r.1][CategoryField] == category
    ensures forall id :: id != r.1 ==> (id in r.0.games <==> id in s.games)
    ensures forall id :: id in s.games && id != r.1 ==> r.0.games[id] == s.games[id]
    ensures r.0.players == s.players && r.0.pending == s.pending
    ensures r.0.pool == s.pool && r.0.published == s.published
    ensures Valid(s) ==> r.1 !in s.games && Valid(r.0)
  {
    var n := s.counter + 1;
    var gameId := NatToDecimal(n);
    ParseNatToDecimal(n);
    var s' := s.(counter := n, games := s.games[gameId := Fields(s, gameId)[CategoryField := category]]);
    CreateGameKeepsValid(s, s', gameId, category);
    (s', gameId)
  }

  lemma CreateGameKeepsValid(s: Store, s': Store, gameId: string, category: string)
    requires IsDigits(gameId) && ParseDecimal(gameId) == s.counter + 1
    requires s' == s.(counter := s.counter + 1, games := s.games[gameId := Fields(s, gameId)[CategoryField := category]])
    ensures Valid(s) ==> gameId !in s.games && Valid(s')
  {
    if Valid(s) {
      assert gameId !in s.games;
      assert Fields(s, gameId) == map[];
      forall id | id in s'.pending
        ensures id in s'.games && StartedField !in s'.games[id] && s'.pending[id] == |Members(s', id)|
      {
        assert id != gameId;
      }
    }
  }

  /** findGame: empty when the game hash is empty; otherwise the category
      field, "started" parsed as a boolean with "false" as the default, and
      the size of the member set. */
  function FindGame(s: Store, gameId: string): (r: Option<Game>)
    ensures r.None? <==> |Fields(s, gameId)| == 0
    ensures r.Some? ==> && r.value.id == gameId
                        && r.value.players == |Members(s, gameId)|
                        && (CategoryField in Fields(s, gameId) ==>
                              r.value.category == Some(Fields(s, gameId)[CategoryField]))
                        && (CategoryField !in Fields(s, gameId) ==> r.value.category == None)
                        && (r.value.started <==>
                              StartedField in Fields(s, gameId) &&
                              LowerCase(Fields(s, gameId)[StartedField]) == "true")
  {
    var fields := Fields(s, gameId);
    if |fields| == 0 then None
    else Some(Game(
      gameId,
      if CategoryField in fields then Some(fields[CategoryField]) else None,
      ParseBoolean(if StartedField in fields then fields[StartedField] else "false"),
      |Members(s, gameId)|))
  }

  /** In a reachable store findGame finds exactly the created games, reports
      their category, and reports "started" exactly when the started field is
      present, the test addPlayer uses. */
  lemma FindGameOnValidStore(s: Store, gameId: string)
    requires Valid(s)
    ensures FindGame(s, gameId).Some? <==> gameId in s.games
    ensures gameId in s.games ==>
      && FindGame(s, gameId).value.category == Some(s.games[gameId][CategoryField])
      && (FindGame(s, gameId).value.started <==> StartedField in s.games[gameId])
  {
    if gameId in s.games {
      var fields := s.games[gameId];
      assert CategoryField in fields;
      assert |fields| > 0;
      if StartedField in fields {
        assert fields[StartedField] == "true";
      }
    }
  }

  /** A freshly created game is found with its category, no players and not
      started, and successive creations hand out increasing ids. */
  lemma CreateThenFind(s: Store, category: string)
    requires Valid(s)
    ensures var (s', id) := CreateGame(s, category);
      FindGame(s', id) == Some(Game(id, Some(category), false, 0))
    ensures var (s', id) := CreateGame(s, category);
      ParseDecimal(CreateGame(s', category).1) == ParseDecimal(id) + 1
  {
    var (s', id) := CreateGame(s, category);
    assert id !in s.players;
    assert Fields(s', id) == map[CategoryField := category];
    assert LowerCase("false") != "true" by {
      assert LowerCase("false")[0] == 'f';
    }
  }

  /** addPlayer: empty when the game hash is empty, has a started field, or
      already holds the user (SADD answers 0). Otherwise the user joins, the
      game is read back, and its new player count becomes its score in the
      pending index. */
  function AddPlayer(s: Store, gameId: string, username: string): (r: (Store, Option<Game>))
    ensures r.1.Some? <==>
      |Fields(s, gameId)| > 0 && StartedField !in Fields(s, gameId) && username !in Members(s, gameId)
    ensures r.1.None? ==> r.0 == s
    ensures r.1.Some? ==>
      && r.1.value.id == gameId
      && r.1.value.players == |Members(s, gameId)| + 1
      && !r.1.value.started
      && r.0.players == s.players[gameId := Members(s, gameId) + {username}]
      && r.0.pending == s.pending[gameId := |Members(s, gameId)| + 1]
      && r.0.games == s.games && r.0.counter == s.counter
      && r.0.pool == s.pool && r.0.published == s.published
      && r.1 == FindGame(r.0, gameId)
    ensures Valid(s) ==> Valid(r.0)
  {
    var fields := Fields(s, gameId);
    if |fields| == 0 || StartedField in fields then (s, None)
    else if username in Members(s, gameId) then (s, None)
    else
      var s1 := s.(players := s.players[gameId := Members(s, gameId) + {username}]);
      assert LowerCase("false")[0] == 'f';
      var g := FindGame(s1, gameId);
      var s2 := s1.(pending := s1.pending[gameId := g.value.players]);
      AddPlayerKeepsValid(s, s2, gameId, username);
      (s2, g)
  }

  lemma AddPlayerKeepsValid(s: Store, s': Store, gameId: string, username: string)
    requires gameId in s.games && StartedField !in s.games[gameId]
    requires s' == s.(players := s.players[gameId := Members(s, gameId) + {username}],
                      pending := s.pending[gameId := |Members(s, gameId) + {username}|])
    ensures Valid(s) ==> Valid(s')
  {
    if Valid(s) {
      forall id | id in s'.pending
        ensures id in s'.games && StartedField !in s'.games[id] && s'.pending[id] == |Members(s', id)|
      {
        if id != gameId {
          assert Members(s', id) == Members(s, id);
        }
      }
    }
  }

  /** Once a game has started, nobody can join it and nothing changes. */
  lemma NoJoinAfterStart(s: Store, gameId: string, username: string)
    requires FindGame(s, gameId).Some? && FindGame(s, gameId).value.started
    ensures AddPlayer(s, gameId, username) == (s, None)
  {
  }

  /** Joining twice counts the player once: the second call answers empty and
      the count seen by findGame grew by exactly one over both calls. */
  lemma JoinIsIdempotent(s: Store, gameId: string, username: string)
    requires AddPlayer(s, gameId, username).1.Some?
    ensures var s1 := AddPlayer(s, gameId, username).0;
      && AddPlayer(s1, gameId, username) == (s1, None)
      && FindGame(s1, gameId).value.players == |Members(s, gameId)| + 1
  {
  }

  // ----------------------------------------------------- starting pending games

  /** The messages announcing that the given games started, in order. */
  function StartedMessages(ids: seq<string>): (ms: seq<Publication>)
    ensures |ms| == |ids|
    ensures forall i :: 0 <= i < |ids| ==> ms[i] == Publication(GameChannel, ids[i])
  {
    if |ids| == 0 then [] else [Publication(GameChannel, ids[0])] + StartedMessages(ids[1..])
  }

  /** One MULTI/EXEC of startPendingGames: mark the game started, drop it from
      the pending index and publish its id on the game channel. */
  function StartOne(s: Store, gameId: string): (r: Store)
    ensures MarkedStarted(r, gameId) && gameId !in r.pending
    ensures r.games[gameId].Keys == Fields(s, gameId).Keys + {StartedField}
    ensures forall f :: f in Fields(s, gameId) && f != StartedField ==>
      f in r.games[gameId] && r.games[gameId][f] == Fields(s, gameId)[f]
    ensures forall id :: id != gameId ==>
      && (id in r.games <==> id in s.games)
      && (id in s.games ==> r.games[id] == s.games[id])
      && (id in r.pending <==> id in s.pending)
      && (id in s.pending ==> r.pending[id] == s.pending[id])
    ensures r.published == s.published + [Publication(GameChannel, gameId)]
    ensures r.counter == s.counter && r.players == s.players && r.pool == s.pool
  {
    s.(games := s.games[gameId := Fields(s, gameId)[StartedField := "true"]],
       pending := s.pending - {gameId},
       published := s.published + [Publication(GameChannel, gameId)])
  }

  /** The transactions of startPendingGames for a batch of ids, in order.
      They touch only the game hashes, the pending index and the channel. */
  function StartAll(s: Store, ids: seq<string>): (r: Store)
    ensures r.counter == s.counter && r.players == s.players && r.pool == s.pool
    decreases |ids|
  {
    if |ids| == 0 then s
    else StartAll(StartOne(s, ids[0]), ids[1..])
  }

  /** Every game of the batch ends up marked started, off the pending index,
      with its other fields as they were. */
  lemma {:induction false} StartAllMarksBatch(s: Store, ids: seq<string>, i: nat)
    requires i < |ids|
    ensures MarkedStarted(StartAll(s, ids), ids[i]) && ids[i] !in StartAll(s, ids).pending
    ensures StartAll(s, ids).games[ids[i]].Keys == Fields(s, ids[i]).Keys + {StartedField}
    ensures forall f :: f in Fields(s, ids[i]) && f != StartedField ==>
      f in StartAll(s, ids).games[ids[i]] && StartAll(s, ids).games[ids[i]][f] == Fields(s, ids[i])[f]
    decreases |ids|
  {
    var s1 := StartOne(s, ids[0]);
    if i == 0 {
      if ids[0] in ids[1..] {
        var j :| 0 <= j < |ids[1..]| && ids[1..][j] == ids[0];
        StartAllMarksBatch(s1, ids[1..], j);
      } else {
        StartAllKeepsOthers(s1, ids[1..], ids[0]);
      }
    } else {
      StartAllMarksBatch(s1, ids[1..], i - 1);
    }
  }

  /** A game outside the batch keeps its hash and its pending entry. */
  lemma {:induction false} StartAllKeepsOthers(s: Store, ids: seq<string>, gameId: string)
    requires gameId !in ids
    ensures gameId in StartAll(s, ids).games <==> gameId in s.games
    ensures gameId in s.games ==> StartAll(s, ids).games[gameId] == s.games[gameId]
    ensures gameId in StartAll(s, ids).pending <==> gameId in s.pending
    ensures gameId in s.pending ==> StartAll(s, ids).pending[gameId] == s.pending[gameId]
    decreases |ids|
  {
    if |ids| > 0 {
      StartAllKeepsOthers(StartOne(s, ids[0]), ids[1..], gameId);
    }
  }

  /** The batch's ids are published in order. */
  lemma {:induction false} StartAllPublishes(s: Store, ids: seq<string>)
    ensures StartAll(s, ids).published == s.published + StartedMessages(ids)
    decreases |ids|
  {
    if |ids| > 0 {
      var s1 := StartOne(s, ids[0]);
      StartAllPublishes(s1, ids[1..]);
      assert StartedMessages(ids) == [Publication(GameChannel, ids[0])] + StartedMessages(ids[1..]);
    }
  }

  lemma StartOneKeepsValid(s: Store, gameId: string)
    requires Valid(s) && gameId in s.games
    ensures Valid(StartOne(s, gameId))
  {
    var s' := StartOne(s, gameId);
    assert s'.games.Keys == s.games.Keys;
    assert s'.counter == s.counter && s'.players == s.players;
    forall id | id in s'.games
      ensures CategoryField in s'.games[id]
      ensures StartedField in s'.games[id] ==> s'.games[id][StartedField] == "true"
    {
      if id == gameId {
        assert s'.games[id] == s.games[id][StartedField := "true"];
      } else {
        assert s'.games[id] == s.games[id];
      }
    }
    forall id | id in s'.pending
      ensures id in s'.games && StartedField !in s'.games[id] && s'.pending[id] == |Members(s', id)|
    {
      assert id != gameId;
      assert s'.games[id] == s.games[id];
    }
  }

  /** Starting games that exist keeps a reachable store reachable. */
  lemma {:induction false} StartAllKeepsValid(s: Store, ids: seq<string>)
    requires Valid(s)
    requires forall i :: 0 <= i < |ids| ==> ids[i] in s.games
    ensures Valid(StartAll(s, ids))
    decreases |ids|
  {
    if |ids| > 0 {
      StartOneKeepsValid(s, ids[0]);
      StartAllKeepsValid(StartOne(s, ids[0]), ids[1..]);
    }
  }

  /** startPendingGames(minPlayers): read up to 100 ids of the pending index
      whose score is at least minPlayers, first in sorted-set order, and start
      each of them. Also answers the batch, which is what was published. */
  method StartPendingGames(s: Store, minPlayers: int) returns (s': Store, batch: seq<string>)
    ensures |batch| <= StartBatchLimit && Distinct(batch)
    ensures forall i :: 0 <= i < |batch| ==> batch[i] in s.pending && s.pending[batch[i]] >= minPlayers
    ensures forall id :: id in s.pending && s.pending[id] >= minPlayers && id !in batch ==>
      |batch| == StartBatchLimit
    ensures forall i :: 0 <= i < |batch| ==>
      MarkedStarted(s', batch[i]) && batch[i] !in s'.pending
      && s'.games[batch[i]].Keys == Fields(s, batch[i]).Keys + {StartedField}
    ensures forall i, f :: 0 <= i < |batch| && f in Fields(s, batch[i]) && f != StartedField ==>
      batch[i] in s'.games && f in s'.games[batch[i]] && s'.games[batch[i]][f] == Fields(s, batch[i])[f]
    ensures forall id :: id !in batch ==>
      && (id in s'.games <==> id in s.games)
      && (id in s.games ==> s'.games[id] == s.games[id])
      && (id in s'.pending <==> id in s.pending)
      && (id in s.pending ==> s'.pending[id] == s.pending[id])
    ensures s'.published == s.published + StartedMessages(batch)
    ensures s'.counter == s.counter && s'.players == s.players && s'.pool == s.pool
    ensures Valid(s) ==> Valid(s')
  {
    batch := RangeByScore(s.pending, minPlayers, StartBatchLimit);
    s' := StartAll(s, batch);
    forall i | 0 <= i < |batch|
      ensures MarkedStarted(s', batch[i]) && batch[i] !in s'.pending
      ensures s'.games[batch[i]].Keys == Fields(s, batch[i]).Keys + {StartedField}
      ensures forall f :: f in Fields(s, batch[i]) && f != StartedField ==>
        f in s'.games[batch[i]] && s'.games[batch[i]][f] == Fields(s, batch[i])[f]
    {
      StartAllMarksBatch(s, batch, i);
    }
    forall id | id !in batch
      ensures && (id in s'.games <==> id in s.games)
              && (id in s.games ==> s'.games[id] == s.games[id])
              && (id in s'.pending <==> id in s.pending)
              && (id in s.pending ==> s'.pending[id] == s.pending[id])
    {
      StartAllKeepsOthers(s, batch, id);
    }
    StartAllPublishes(s, batch);
    if Valid(s) {
      StartAllKeepsValid(s, batch);
    }
  }

  /** Through findGame: every game of the batch now reports started, and a
      game that stayed pending still reports not started. */
  lemma StartedGamesReportStarted(s': Store, batch: seq<string>, gameId: string)
    requires Valid(s')
    requires forall i :: 0 <= i < |batch| ==> MarkedStarted(s', batch[i])
    requires gameId in s'.pending
    ensures forall i :: 0 <= i < |batch| ==>
      FindGame(s', batch[i]).Some? && FindGame(s', batch[i]).value.started
    ensures FindGame(s', gameId).Some? && !FindGame(s', gameId).value.started
  {
    forall i | 0 <= i < |batch|
      ensures FindGame(s', batch[i]).Some? && FindGame(s', batch[i]).value.started
    {
      FindGameOnValidStore(s', batch[i]);
    }
    FindGameOnValidStore(s', gameId);
  }
}

=== FILE: redis_question_repository.dfy ===
/** The standalone Redis question repository: every question of a category is
    a member of one sorted set keyed "q__" + category, scored by how often it
    was saved. */
module RedisQuestionRepository {
  import opened Strings
  import opened Domain
  import opened SortedSet
  import opened Sequences
  import RedisGameRepository

  const KeyPrefix := "q__"

  /** The key of the sorted set holding a question's category. */
  function CreateKey(q: Question): (k: string)
    ensures |k| == |KeyPrefix| + |q.category|
    ensures k[..|KeyPrefix|] == KeyPrefix && k[|KeyPrefix|..] == q.category
  {
    KeyPrefix + q.category
  }

  /** The key find reads for a category. */
  function FindKey(category: string): string {
    KeyPrefix + category
  }

  /** listCategories cuts the first three characters off every key; on a key
      made by createKey that gives back the question's category, and find for
      that category reads the key save wrote. */
  lemma KeyRoundTrip(q: Question)
    ensures CreateKey(q)[3..] == q.category
    ensures FindKey(q.category) == CreateKey(q)
  {
    PrefixStrip(KeyPrefix, q.category, q.category);
  }

  /** The "q__" keys never meet the game repository's "q:" question keys, so
      the two repositories keep separate pools in one keyspace. */
  lemma NamespacesDisjoint(c: string, d: string)
    ensures FindKey(c) != RedisGameRepository.QuestionKey(d)
  {
    assert FindKey(c)[1] == '_';
    assert RedisGameRepository.QuestionKey(d)[1] == ':';
  }

  /** save: ZADD INCR 1 of the question under createKey; answers the new
      score. Saving an identical question again raises its score rather than
      adding a second member. */
  function Save(pool: Keyspace<Question>, q: Question): (r: (Keyspace<Question>, nat))
    ensures CreateKey(q) in r.0 && q in r.0[CreateKey(q)] && r.0[CreateKey(q)][q] == r.1
    ensures r.1 == (if CreateKey(q) in pool && q in pool[CreateKey(q)] then pool[CreateKey(q)][q] else 0) + 1
    ensures CreateKey(q) in pool ==> r.0[CreateKey(q)].Keys == pool[CreateKey(q)].Keys + {q}
    ensures CreateKey(q) !in pool ==> r.0[CreateKey(q)].Keys == {q}
    ensures CreateKey(q) in pool ==> forall m :: m in pool[CreateKey(q)] && m != q ==>
      r.0[CreateKey(q)][m] == pool[CreateKey(q)][m]
    ensures forall k :: k != CreateKey(q) ==> (k in r.0 <==> k in pool)
    ensures forall k :: k in pool && k != CreateKey(q) ==> r.0[k] == pool[k]
  {
    IncrementAt(pool, CreateKey(q), q)
  }

  /** find: ZRANGE 0 -1 of "q__" + category, every question once by
      ascending score. */
  method Find(pool: Keyspace<Question>, category: string) returns (qs: seq<Question>)
    ensures Distinct(qs)
    ensures forall q :: q in qs <==> FindKey(category) in pool && q in pool[FindKey(category)]
    ensures FindKey(category) in pool ==> forall i, j :: 0 <= i < j < |qs| ==>
      pool[FindKey(category)][qs[i]] <= pool[FindKey(category)][qs[j]]
  {
    var key := FindKey(category);
    if key in pool {
      qs := Range(pool[key]);
    } else {
      qs := [];
    }
  }

  /** listCategories: KEYS "q__*", each with its first three characters cut
      off, i.e. exactly the categories holding a saved question. */
  function ListCategories(pool: Keyspace<Question>): (cats: set<string>)
    ensures forall c :: c in cats <==> FindKey(c) in pool && |pool[FindKey(c)]| > 0
  {
    assert |KeyPrefix| == 3;
    NamesUnder(pool, KeyPrefix)
  }

  /** A saved question is in its category, which is then listed, and saving
      it a second time leaves the category's members as they were. */
  lemma SaveThenFindAndList(pool: Keyspace<Question>, q: Question)
    ensures var p1 := Save(pool, q).0;
      && FindKey(q.category) in p1 && q in p1[FindKey(q.category)]
      && ListCategories(p1) == ListCategories(pool) + {q.category}
      && Save(p1, q).0[CreateKey(q)].Keys == p1[CreateKey(q)].Keys
      && Save(p1, q).1 == Save(pool, q).1 + 1
  {
    var p1 := Save(pool, q).0;
    KeyRoundTrip(q);
    forall c
      ensures c in ListCategories(p1) <==> c in ListCategories(pool) + {q.category}
    {
      PrefixStrip(KeyPrefix, c, q.category);
    }
  }
}

=== FILE: sequences.dfy ===
/** Small facts about sequences shared by the other modules. */
module Sequences {

  /** No element occurs twice. */
  predicate Distinct<T(==)>(xs: seq<T>) {
    forall i, j :: 0 <= i < j < |xs| ==> xs[i] != xs[j]
  }

  /** A list is duplicate-free exactly when its head does not recur in its
      duplicate-free tail. */
  lemma DistinctCons<T>(x: T, xs: seq<T>)
    ensures Distinct([x] + xs) <==> x !in xs && Distinct(xs)
  {
    var ys := [x] + xs;
    if Distinct(ys) {
      forall i, j | 0 <= i < j < |xs|
        ensures xs[i] != xs[j]
      {
        assert ys[i + 1] == xs[i] && ys[j + 1] == xs[j];
      }
      forall i | 0 <= i < |xs|
        ensures xs[i] != x
      {
        assert ys[0] == x && ys[i + 1] == xs[i];
      }
    }
  }
}

=== FILE: sorted_set.dfy ===
/** The Redis sorted-set commands the repositories use. A sorted set is a map
    from member to score; scores only ever grow by whole increments here, so
    they are natural numbers rather than doubles. */
module SortedSet {
  import opened Strings
  import opened Sequences

  /** ZADD key INCR 1 member: the member's score grows by one (an absent member
      counts as zero), and the command answers with the new score. */
  function IncrementScore<T>(z: map<T, nat>, member: T): (r: (map<T, nat>, nat))
    ensures r.1 >= 1
    ensures member in z ==> r.1 == z[member] + 1
    ensures member !in z ==> r.1 == 1
    ensures r.0.Keys == z.Keys + {member}
    ensures member in r.0 && r.0[member] == r.1
    ensures forall m :: m in z && m != member ==> r.0[m] == z[m]
  {
    var score := (if member in z then z[member] else 0) + 1;
    (z[member := score], score)
  }

  /** A member whose score is no larger than any other in s. */
  method MinByScore<T>(z: map<T, nat>, s: set<T>) returns (m: T)
    requires s != {} && s <= z.Keys
    ensures m in s
    ensures forall k :: k in s ==> z[m] <= z[k]
  {
    m :| m in s;
    var rest := s - {m};
    while rest != {}
      invariant rest <= s && m in s && m !in rest
      invariant forall k :: k in s && k !in rest ==> z[m] <= z[k]
      decreases rest
    {
      var k :| k in rest;
      if z[k] < z[m] {
        m := k;
      }
      rest := rest - {k};
    }
  }

  /** ZRANGE key 0 -1: every member once, by ascending score. Redis breaks ties
      by the members' encodings, which this model leaves unspecified. */
  method Range<T>(z: map<T, nat>) returns (xs: seq<T>)
    ensures Distinct(xs)
    ensures forall i :: 0 <= i < |xs| ==> xs[i] in z
    ensures forall m :: m in z ==> m in xs
    ensures forall i, j :: 0 <= i < j < |xs| ==> z[xs[i]] <= z[xs[j]]
  {
    var rest := z.Keys;
    xs := [];
    while rest != {}
      invariant rest <= z.Keys
      invariant forall i :: 0 <= i < |xs| ==> xs[i] in z && xs[i] !in rest
      invariant forall m :: m in z ==> m in rest || m in xs
      invariant Distinct(xs)
      invariant forall i, j :: 0 <= i < j < |xs| ==> z[xs[i]] <= z[xs[j]]
      invariant forall i, k :: 0 <= i < |xs| && k in rest ==> z[xs[i]] <= z[k]
      decreases rest
    {
      var m := MinByScore(z, rest);
      xs := xs + [m];
      rest := rest - {m};
    }
  }

  /** The order of a sorted set with string members: by score, then by member. */
  predicate Before(z: map<string, nat>, a: string, b: string)
    requires a in z && b in z
  {
    z[a] < z[b] || (z[a] == z[b] && LexLess(a, b))
  }

  lemma BeforeTransitive(z: map<string, nat>, a: string, b: string, c: string)
    requires a in z && b in z && c in z
    requires Before(z, a, b) && Before(z, b, c)
    ensures Before(z, a, c)
  {
    if z[a] == z[b] && z[b] == z[c] {
      LexLessTransitive(a, b, c);
    }
  }

  lemma BeforeTotal(z: map<string, nat>, a: string, b: string)
    requires a in z && b in z && a != b
    ensures Before(z, a, b) != Before(z, b, a)
  {
    LexLessTotal(a, b);
    LexLessAsymmetric(a, b);
  }

  /** The members whose score is at least min. */
  function AtLeast(z: map<string, nat>, min: int): (s: set<string>)
    ensures forall k :: k in s <==> k in z && z[k] >= min
  {
    set k | k in z && z[k] >= min
  }

  /** The first member of s in the sorted-set order. */
  method FirstOf(z: map<string, nat>, s: set<string>) returns (m: string)
    requires s != {} && s <= z.Keys
    ensures m in s
    ensures forall k :: k in s && k != m ==> Before(z, m, k)
  {
    m :| m in s;
    var rest := s - {m};
    while rest != {}
      invariant rest <= s && m in s && m !in rest
      invariant forall k :: k in s && k !in rest && k != m ==> Before(z, m, k)
      decreases rest
    {
      var k :| k in rest;
      BeforeTotal(z, k, m);
      if Before(z, k, m) {
        forall j | j in s && j !in rest && j != k
          ensures Before(z, k, j)
        {
          if j != m {
            BeforeTransitive(z, k, m, j);
          }
        }
        m := k;
      }
      rest := rest - {k};
    }
  }

  /** ZRANGEBYSCORE key [min +inf LIMIT 0 limit: the first `limit` members of
      score at least min, in sorted-set order. Every qualifying member left out
      comes after all the returned ones, and only when the limit is reached. */
  method RangeByScore(z: map<string, nat>, min: int, limit: nat) returns (xs: seq<string>)
    ensures |xs| <= limit
    ensures Distinct(xs)
    ensures forall i :: 0 <= i < |xs| ==> xs[i] in z && z[xs[i]] >= min
    ensures forall i, j :: 0 <= i < j < |xs| ==> Before(z, xs[i], xs[j])
    ensures forall k :: k in AtLeast(z, min) && k !in xs ==>
      |xs| == limit && forall i :: 0 <= i < |xs| ==> Before(z, xs[i], k)
  {
    var rest := AtLeast(z, min);
    xs := [];
    while |xs| < limit && rest != {}
      invariant |xs| <= limit
      invariant rest <= AtLeast(z, min)
      invariant forall i :: 0 <= i < |xs| ==> xs[i] in AtLeast(z, min) && xs[i] !in rest
      invariant forall k :: k in AtLeast(z, min) ==> k in rest || k in xs
      invariant Distinct(xs)
      invariant forall i, j :: 0 <= i < j < |xs| ==> Before(z, xs[i], xs[j])
      invariant forall i, k :: 0 <= i < |xs| && k in rest ==> Before(z, xs[i], k)
      decreases rest
    {
      var m := FirstOf(z, rest);
      xs := xs + [m];
      rest := rest - {m};
    }
  }

  /** A Redis keyspace of sorted sets, by full key. */
  type Keyspace<T> = map<string, map<T, nat>>

  /** ZADD key INCR 1 member on a keyspace: a missing key starts as an empty
      sorted set, and every other key is left alone. */
  function IncrementAt<T>(ks: Keyspace<T>, key: string, member: T): (r: (Keyspace<T>, nat))
    ensures key in r.0 && member in r.0[key] && r.0[key][member] == r.1
    ensures r.1 == (if key in ks && member in ks[key] then ks[key][member] else 0) + 1
    ensures key in ks ==> r.0[key].Keys == ks[key].Keys + {member}
    ensures key !in ks ==> r.0[key].Keys == {member}
    ensures key in ks ==> forall m :: m in ks[key] && m != member ==> r.0[key][m] == ks[key][m]
    ensures forall k :: k != key ==> (k in r.0 <==> k in ks)
    ensures forall k :: k in ks && k != key ==> r.0[k] == ks[k]
  {
    var (z, score) := IncrementScore(if key in ks then ks[key] else map[], member);
    (ks[key := z], score)
  }

  /** KEYS prefix*: the keys of a keyspace that start with the prefix. */
  function KeysWithPrefix<T>(keyspace: map<string, T>, prefix: string): (ks: set<string>)
    ensures forall k :: k in ks <==> k in keyspace && HasPrefix(k, prefix)
  {
    set k | k in keyspace && HasPrefix(k, prefix)
  }

  /** KEYS prefix* with the prefix cut off every key: the names under which
      sorted sets exist. Redis drops a sorted set with no members, so an empty
      one is not listed. */
  function NamesUnder<T>(keyspace: Keyspace<T>, prefix: string): (names: set<string>)
    ensures forall c :: c in names <==> prefix + c in keyspace && |keyspace[prefix + c]| > 0
  {
    var names := set k | k in KeysWithPrefix(keyspace, prefix) && |keyspace[k]| > 0 :: k[|prefix|..];
    forall c
      ensures c in names <==> prefix + c in keyspace && |keyspace[prefix + c]| > 0
    {
      PrefixStrip(prefix, c, c);
      if c in names {
        var k :| k in KeysWithPrefix(keyspace, prefix) && |keyspace[k]| > 0 && c == k[|prefix|..];
        assert k == k[..|prefix|] + k[|prefix|..];
      }
    }
    names
  }
}

=== FILE: strings.dfy ===
/** The few pieces of Java's string library the repositories, services and
    handler rely on:
    Long.toString / Integer.toString of ids and counts, Boolean.parseBoolean,
    String.equalsIgnoreCase (restricted to ASCII case folding), prefix tests,
    and the byte-wise ordering Redis uses to break score ties. */
module Strings {

  predicate IsDigit(c: char) {
    '0' <= c <= '9'
  }

  /** Non-empty and made of decimal digits only, the regex \d+. */
  predicate IsDigits(s: string) {
    |s| > 0 && forall i :: 0 <= i < |s| ==> IsDigit(s[i])
  }

  function DigitChar(d: nat): (c: char)
    requires d < 10
    ensures IsDigit(c)
  {
    ['0', '1', '2', '3', '4', '5', '6', '7', '8', '9'][d]
  }

  function DigitValue(c: char): (d: nat)
    requires IsDigit(c)
    ensures d < 10
    ensures DigitChar(d) == c
  {
    if c == '0' then 0 else if c == '1' then 1 else if c == '2' then 2
    else if c == '3' then 3 else if c == '4' then 4 else if c == '5' then 5
    else if c == '6' then 6 else if c == '7' then 7 else if c == '8' then 8
    else 9
  }

  /** The decimal rendering of a natural number, as Long.toString writes it:
      no sign and no leading zero. */
  function NatToDecimal(n: nat): (s: string)
    ensures IsDigits(s)
    ensures |s| > 1 ==> s[0] != '0'
    decreases n
  {
    if n < 10 then [DigitChar(n)]
    else NatToDecimal(n / 10) + [DigitChar(n % 10)]
  }

  /** The decimal rendering of an int, as Integer.toString writes it: the
      digits of the magnitude, after a minus sign when negative. */
  function IntToDecimal(n: int): (s: string)
    ensures |s| > 0
    ensures n >= 0 ==>
      && IsDigits(s) && ParseDecimal(s) == n
      && (|s| > 1 ==> s[0] != '0')
    ensures n < 0 ==>
      && |s| > 1 && s[0] == '-'
      && IsDigits(s[1..]) && ParseDecimal(s[1..]) == -n
      && (|s| > 2 ==> s[1] != '0')
  {
    if n < 0 then
      var magnitude: nat := -n;
      var digits := NatToDecimal(magnitude);
      ParseNatToDecimal(magnitude);
      SignedDigits(digits, magnitude);
      "-" + digits
    else
      ParseNatToDecimal(n);
      NatToDecimal(n)
  }

  /** A minus sign in front of canonical digits: cutting the sign off gives
      back the digits, their value and their first character. */
  lemma SignedDigits(digits: string, m: nat)
    requires IsDigits(digits) && ParseDecimal(digits) == m
    requires |digits| > 1 ==> digits[0] != '0'
    ensures var s := "-" + digits;
      && |s| > 1 && s[0] == '-'
      && IsDigits(s[1..]) && ParseDecimal(s[1..]) == m
      && (|s| > 2 ==> s[1] != '0')
  {
    var s := "-" + digits;
    assert s[1..] == digits;
  }

  /** The value of a string of decimal digits (Long.parseLong on \d+). */
  function ParseDecimal(s: string): nat
    requires forall i :: 0 <= i < |s| ==> IsDigit(s[i])
    decreases |s|
  {
    if |s| == 0 then 0
    else ParseDecimal(s[..|s| - 1]) * 10 + DigitValue(s[|s| - 1])
  }

  /** Parsing undoes rendering, so distinct numbers have distinct renderings. */
  lemma {:induction false} ParseNatToDecimal(n: nat)
    ensures ParseDecimal(NatToDecimal(n)) == n
    decreases n
  {
    if n >= 10 {
      var s := NatToDecimal(n);
      assert s[..|s| - 1] == NatToDecimal(n / 10);
      ParseNatToDecimal(n / 10);
    }
  }

  lemma NatToDecimalInjective(a: nat, b: nat)
    ensures NatToDecimal(a) == NatToDecimal(b) <==> a == b
  {
    if NatToDecimal(a) == NatToDecimal(b) {
      ParseNatToDecimal(a);
      ParseNatToDecimal(b);
    }
  }

  predicate HasPrefix(s: string, prefix: string) {
    |prefix| <= |s| && s[..|prefix|] == prefix
  }

  /** Concatenating a prefix and then cutting it off again gives back the suffix,
      and two keys built on the same prefix are equal only for equal suffixes. */
  lemma PrefixStrip(prefix: string, a: string, b: string)
    ensures HasPrefix(prefix + a, prefix)
    ensures (prefix + a)[|prefix|..] == a
    ensures prefix + a == prefix + b <==> a == b
  {
    if prefix + a == prefix + b {
      assert a == (prefix + a)[|prefix|..];
      assert b == (prefix + b)[|prefix|..];
    }
  }

  /** Character.toLowerCase restricted to ASCII letters. */
  function ToLower(c: char): char {
    if 'A' <= c <= 'Z' then (c as int + 32) as char else c
  }

  /** Character.toUpperCase restricted to ASCII letters. */
  function ToUpper(c: char): char {
    if 'a' <= c <= 'z' then (c as int - 32) as char else c
  }

  function LowerCase(s: string): (r: string)
    ensures |r| == |s|
    ensures forall i :: 0 <= i < |s| ==> r[i] == ToLower(s[i])
  {
    if |s| == 0 then [] else [ToLower(s[0])] + LowerCase(s[1..])
  }

  /** One position of String.regionMatches with ignoreCase set: equal
      characters, equal upper cases, or equal lower cases of the upper cases. */
  predicate CharsEqualIgnoreCase(c1: char, c2: char) {
    c1 == c2 || ToUpper(c1) == ToUpper(c2) || ToLower(ToUpper(c1)) == ToLower(ToUpper(c2))
  }

  /** String.equalsIgnoreCase: same length and every position matches. */
  predicate EqualsIgnoreCase(a: string, b: string) {
    |a| == |b| && forall i :: 0 <= i < |a| ==> CharsEqualIgnoreCase(a[i], b[i])
  }

  lemma CharsEqualIgnoreCaseIsLower(c1: char, c2: char)
    ensures CharsEqualIgnoreCase(c1, c2) <==> ToLower(c1) == ToLower(c2)
  {
  }

  /** Java's case-insensitive comparison agrees with comparing lower-cased
      strings, so it is an equivalence relation. */
  lemma EqualsIgnoreCaseIsLowerCaseEquality(a: string, b: string)
    ensures EqualsIgnoreCase(a, b) <==> LowerCase(a) == LowerCase(b)
  {
    if EqualsIgnoreCase(a, b) {
      forall i | 0 <= i < |a|
        ensures LowerCase(a)[i] == LowerCase(b)[i]
      {
        CharsEqualIgnoreCaseIsLower(a[i], b[i]);
      }
    }
    if LowerCase(a) == LowerCase(b) {
      forall i | 0 <= i < |a|
        ensures CharsEqualIgnoreCase(a[i], b[i])
      {
        assert LowerCase(a)[i] == LowerCase(b)[i];
        CharsEqualIgnoreCaseIsLower(a[i], b[i]);
      }
    }
  }

  /** Boolean.parseBoolean: true exactly for "true" in any letter case. */
  function ParseBoolean(s: string): (b: bool)
    ensures b <==> LowerCase(s) == "true"
  {
    EqualsIgnoreCaseIsLowerCaseEquality("true", s);
    EqualsIgnoreCase("true", s)
  }

  /** Strict lexicographic order by character code, the order Redis uses
      between members of equal score (for ASCII members). */
  predicate LexLess(a: string, b: string)
    decreases |a|
  {
    if |a| == 0 then |b| > 0
    else if |b| == 0 then false
    else a[0] < b[0] || (a[0] == b[0] && LexLess(a[1..], b[1..]))
  }

  lemma {:induction false} LexLessAsymmetric(a: string, b: string)
    ensures LexLess(a, b) ==> !LexLess(b, a)
    decreases |a|
  {
    if |a| > 0 && |b| > 0 && a[0] == b[0] {
      LexLessAsymmetric(a[1..], b[1..]);
    }
  }

  lemma {:induction false} LexLessTransitive(a: string, b: string, c: string)
    requires LexLess(a, b) && LexLess(b, c)
    ensures LexLess(a, c)
    decreases |a|
  {
    if |a| > 0 && |b| > 0 && |c| > 0 && a[0] == b[0] && b[0] == c[0] {
      LexLessTransitive(a[1..], b[1..], c[1..]);
    }
  }

  lemma {:induction false} LexLessTotal(a: string, b: string)
    requires a != b
    ensures LexLess(a, b) || LexLess(b, a)
    decreases |a|
  {
    if |a| > 0 && |b| > 0 && a[0] == b[0] {
      assert a == [a[0]] + a[1..];
      assert b == [b[0]] + b[1..];
      LexLessTotal(a[1..], b[1..]);
    }
  }
}

=== FILE: web_socket_game_handler.dfy ===
/** The WebSocket endpoint /api/games/{gameId}/{username}: joins players on
    open, answers their messages privately, forgets them on close, and builds
    the messages broadcast to every session of a game. The transport is
    abstracted as a list of deliveries the handler asks for. */
module WebSocketGameHandler {
  import opened Wrappers
  import opened Strings
  import opened Domain
  import Repo = RedisGameRepository
  import Service = DefaultGameService

  /** The messages sent to clients, one variant per message class. */
  datatype Message =
    | PlayerJoined(username: string, playerCount: int)
    | GameStarted(id: string)
    | RoundStarted(round: int, question: string, answers: seq<string>)
    | RoundCompleted(round: int, answer: string, stats: map<string, int>)
    | PlayerEliminated(username: string)
    | PlayerAdvanced(username: string)

  /** An open session: its id and the gameId variable of its URI, absent when
      the URI has none. */
  datatype Session = Session(id: string, gameIdVariable: Option<string>)

  /** A broadcast to every open session of a game, or a send to one session. */
  datatype Delivery =
    | Broadcast(message: Message, gameId: string)
    | Send(message: Message, sessionId: string)

  /** The handler's session map, by username. */
  type Registry = map<string, Session>

  /** isGame: the broadcast filter, the session's gameId variable equal to the
      game id ignoring case; a session without the variable never matches. */
  function IsGame(gameId: string, session: Session): (b: bool)
    ensures b <==> session.gameIdVariable.Some? &&
                   LowerCase(session.gameIdVariable.value) == LowerCase(gameId)
  {
    if session.gameIdVariable.Some? then
      EqualsIgnoreCaseIsLowerCaseEquality(gameId, session.gameIdVariable.value);
      EqualsIgnoreCase(gameId, session.gameIdVariable.value)
    else false
  }

  /** The open sessions a broadcast for the game reaches, in order. */
  function Recipients(open: seq<Session>, gameId: string): (r: seq<Session>)
    ensures forall x :: x in r <==> x in open && IsGame(gameId, x)
    ensures |r| <= |open|
  {
    if |open| == 0 then []
    else (if IsGame(gameId, open[0]) then [open[0]] else []) + Recipients(open[1..], gameId)
  }

  /** The selection by game id is case-blind: a broadcast for one spelling of
      an id reaches the same sessions as one for any other spelling. */
  lemma RecipientsIgnoreCase(open: seq<Session>, g1: string, g2: string)
    requires EqualsIgnoreCase(g1, g2)
    ensures Recipients(open, g1) == Recipients(open, g2)
  {
    EqualsIgnoreCaseIsLowerCaseEquality(g1, g2);
    if |open| > 0 {
      RecipientsIgnoreCase(open[1..], g1, g2);
    }
  }

  /** onOpen: register the session unless the user already has one, join the
      game through the service and, when the join answers a game, broadcast
      PlayerJoined with the user and the game's new player count. */
  function OnOpen(reg: Registry, s: Repo.Store, gameId: string, username: string, session: Session)
    : (r: (Registry, Repo.Store, seq<Delivery>))
    ensures r.0.Keys == reg.Keys + {username}
    ensures forall u :: u in reg ==> r.0[u] == reg[u]
    ensures username !in reg ==> r.0[username] == session
    ensures r.1 == Service.JoinGame(s, gameId, username, session.id).0
    ensures |r.2| <= 1
    ensures |r.2| == 1 <==>
      |Repo.Fields(s, gameId)| > 0 && Repo.StartedField !in Repo.Fields(s, gameId)
      && username !in Repo.Members(s, gameId)
    ensures |r.2| == 1 ==>
      r.2[0] == Broadcast(PlayerJoined(username, |Repo.Members(s, gameId)| + 1), gameId)
  {
    var reg' := if username in reg then reg else reg[username := session];
    var (s', joined) := Service.JoinGame(s, gameId, username, session.id);
    var out := match joined
      case None => []
      case Some(g) => [Broadcast(PlayerJoined(username, g.players), gameId)];
    (reg', s', out)
  }

  /** The private reply to an answer: advanced when right, eliminated when
      wrong, naming the user either way. */
  function AnswerReply(username: string, correct: bool): (m: Message)
    ensures m.PlayerAdvanced? <==> correct
    ensures m.PlayerEliminated? <==> !correct
    ensures (m.PlayerAdvanced? || m.PlayerEliminated?) && m.username == username
  {
    if correct then PlayerAdvanced(username) else PlayerEliminated(username)
  }

  /** onMessage, given what the service's answerQuestion gave back: the reply
      goes to the answering session only; a service failure sends nothing. */
  function OnMessage(username: string, session: Session, answered: Result<bool, Service.ServiceError>)
    : (r: Result<seq<Delivery>, Service.ServiceError>)
    ensures answered.Failure? ==> r == Failure(answered.error)
    ensures answered.Success? ==>
      && r.Success? && |r.value| == 1 && r.value[0].Send?
      && r.value[0].sessionId == session.id
      && r.value[0].message == AnswerReply(username, answered.value)
  {
    match answered
    case Failure(e) => Failure(e)
    case Success(correct) => Success([Send(AnswerReply(username, correct), session.id)])
  }

  /** With the current service, which does not implement answering, a message
      never produces a reply. */
  lemma MessagesGetNoReply(gameId: string, username: string, session: Session)
    ensures OnMessage(username, session, Service.AnswerQuestion(gameId, username, session.id)).Failure?
  {
  }

  /** onClose: forget the user's session and nothing else; game state is not
      an input, so a disconnect cannot change it. */
  function OnClose(reg: Registry, username: string): (r: Registry)
    ensures username !in r
    ensures forall u :: u != username ==> (u in r <==> u in reg)
    ensures forall u :: u in r ==> r[u] == reg[u]
  {
    reg - {username}
  }

  /** Closing undoes opening for a user who had no session before. */
  lemma OpenThenCloseRestoresRegistry(reg: Registry, s: Repo.Store, gameId: string, username: string, session: Session)
    requires username !in reg
    ensures OnClose(OnOpen(reg, s, gameId, username, session).0, username) == reg
  {
    var r := OnClose(OnOpen(reg, s, gameId, username, session).0, username);
    assert r.Keys == reg.Keys;
  }

  /** broadcastGameStarted: GameStarted with the id, to that game's sessions. */
  function BroadcastGameStarted(gameId: string): (d: Delivery)
    ensures d.Broadcast? && d.gameId == gameId && d.message == GameStarted(gameId)
  {
    Broadcast(GameStarted(gameId), gameId)
  }

  /** The handler's subscription to the game channel: every message published
      there is relayed as a GameStarted broadcast. */
  function RelayGameChannel(published: seq<Repo.Publication>): (ds: seq<Delivery>)
    ensures |ds| == |published|
    ensures forall i :: 0 <= i < |published| ==> ds[i] == BroadcastGameStarted(published[i].message)
  {
    if |published| == 0 then []
    else [BroadcastGameStarted(published[0].message)] + RelayGameChannel(published[1..])
  }

  /** Each game started by a poll reaches its own sessions as GameStarted, in
      the order the games were started. */
  lemma StartedGamesAreAnnounced(batch: seq<string>)
    ensures var ds := RelayGameChannel(Repo.StartedMessages(batch));
      |ds| == |batch| &&
      forall i :: 0 <= i < |batch| ==> ds[i] == Broadcast(GameStarted(batch[i]), batch[i])
  {
  }

  /** The list with positions i and j exchanged. */
  function Swap(xs: seq<string>, i: nat, j: nat): (r: seq<string>)
    requires i < |xs| && j < |xs|
    ensures |r| == |xs|
    ensures multiset(r) == multiset(xs)
  {
    xs[i := xs[j]][j := xs[i]]
  }

  /** Collections.shuffle on the first n elements: for n down to 2, swap
      position n - 1 with a drawn position below n. The random source is the
      parameter draw, whose value for n is reduced to a position below n. */
  function ShuffleFirst(xs: seq<string>, n: nat, draw: nat -> nat): (r: seq<string>)
    requires n <= |xs|
    ensures |r| == |xs|
    ensures multiset(r) == multiset(xs)
    decreases n
  {
    if n <= 1 then xs
    else ShuffleFirst(Swap(xs, n - 1, draw(n) % n), n - 1, draw)
  }

  /** broadcastRoundStarted: the incorrect answers followed by the correct one,
      shuffled, with the round and the question text, to the game's sessions. */
  function BroadcastRoundStarted(gameId: string, round: int, q: Question, draw: nat -> nat): (d: Delivery)
    ensures d.Broadcast? && d.gameId == gameId && d.message.RoundStarted?
    ensures d.message.round == round && d.message.question == q.text
    ensures |d.message.answers| == |q.incorrectAnswers| + 1
    ensures multiset(d.message.answers) == multiset(q.incorrectAnswers) + multiset{q.correctAnswer}
    ensures q.correctAnswer in d.message.answers
  {
    var answers := q.incorrectAnswers + [q.correctAnswer];
    var shuffled := ShuffleFirst(answers, |answers|, draw);
    assert q.correctAnswer in multiset(shuffled);
    Broadcast(RoundStarted(round, q.text, shuffled), gameId)
  }

  /** broadcastRoundCompleted: the round, the question's correct answer and
      the given statistics untouched, to the game's sessions. */
  function BroadcastRoundCompleted(gameId: string, round: int, q: Question, stats: map<string, int>): (d: Delivery)
    ensures d.Broadcast? && d.gameId == gameId
    ensures d.message == RoundCompleted(round, q.correctAnswer, stats)
  {
    Broadcast(RoundCompleted(round, q.correctAnswer, stats), gameId)
  }
}

=== FILE: wrappers.dfy ===
/** Option and Result, the model's stand-ins for Reactor's empty Mono and for
    exceptions raised on the request path. */
module Wrappers {

  datatype Option<+T> = None | Some(value: T)

  datatype Result<+R, +E> = Success(value: R) | Failure(error: E)
}
